=== FILE: README.md ===
# Knight's tour and small Rust utilities, modelled in Dafny

This project models the core of a collection of small Rust command-line
programs:

- **knights-tour**: Warnsdorff's heuristic on an 8×8 board. From the
  current square the knight moves to the available square with the fewest
  onward moves, and the tour fails when no move is available. The
  imperative loop of `knights_tour` is proved to compute a functional
  reference. Every board it returns is proved to be a knight's tour: each of
  1..64 appears exactly once, and consecutive numbers are a knight's jump
  apart. It returns `None` exactly when the walk gets stuck.
- **markov**: the bigram table of `build_table` and the generation loop of
  `run`.
- **password-gen**: the character pools, the class draw, the layout of a
  generated password, the length-feasibility test and how `main` derives the
  minimum counts.
- **maze-generator**: `init`, `is_wall`, the recursive carver `carve` and
  `generate`.
- **fizzbuzz**: the line printed for each integer.

One file per program part:

- `options.dfy`: the `Option` type.
- `knights_board.dfy`: the board, moves, availability and degree.
- `knights_tour.dfy`: candidates, the least candidate, one step and the
  functional run.
- `knights_proofs.dfy`: the tour and failure theorems.
- `knights_solver.dfy`: the imperative `knights_tour` and `main`.
- `markov.dfy`, `password_gen.dfy`, `maze.dfy` and `fizzbuzz.dfy`: one
  program each.

Every random draw is an explicit parameter:
- markov: the `choose` index, taken modulo the list length.
- password-gen: a function from character position to the class draw and
  the index draw.
- maze: a function from the cell a `carve` call starts on to its direction
  draw. Every call starts on a distinct cell, so this covers every sequence
  of draws.

Rust's fixed-width integers are unbounded here. The `u8` and `u16`
wrap-arounds that matter are written out explicitly: `WrapU8`, `WrapU16`.

**Tie-break between equal degrees.** The candidate with the fewest onward
moves is taken with `min()` on `(i32, Point)` pairs. `Point` derives `Ord`,
so ties are broken by the smaller `x`, then the smaller `y`. They are not
broken by the position in the `MOVES` list. `KnightsSolver.FirstMoveFromCorner`
shows that the two readings differ: from (0, 0) both targets have degree 5,
and the code moves to (1, 2), although (2, 1) comes first in `MOVES`.

## Model

| member | source | states |
|---|---|---|
| KnightsBoard.MovesAreKnightMoves | knights-tour/src/main.rs:20-29 | each of the eight `MOVES` offsets is a knight's jump (one square along one axis, two along the other) |
| KnightsBoard.KnightMovesAreMoves | knights-tour/src/main.rs:20-29 | conversely, every knight's jump from a square is one of the eight `MOVES` offsets |
| KnightsBoard.NewBoard | knights-tour/src/main.rs:53-57 | a new board is 8×8 with every cell 0 |
| KnightsBoard.MovReverses | knights-tour/src/main.rs:39-44 | `Point::mov` displaces a point by an offset; the offsets come in opposite pairs, so the move with offset k + 4 undoes the move with offset k, and no move stays in place |
| KnightsBoard.Mark | knights-tour/src/main.rs:103 | writing a step number changes exactly that cell and leaves the other 63 unchanged |
| KnightsBoard.Available | knights-tour/src/main.rs:60-66 | a square reported available is on the board; the range tests come before the field read, so the field is never read off the board |
| KnightsBoard.AvailableOffBoard | knights-tour/src/main.rs:60-66 | a square is available exactly when it is on the board and its cell is 0; off the board it is never available, whatever the board holds |
| KnightsBoard.CountDegree | knights-tour/src/main.rs:69-78 | the degree lies between 0 and 8 |
| KnightsBoard.CountDegreeIsCardinality | knights-tour/src/main.rs:69-78 | the degree is the number of `MOVES` offsets whose target is available |
| KnightsBoard.DegreesOnEmptyBoard | knights-tour/src/main.rs:69-78 | on an empty board the centre square (4, 4) has degree 8 and the corner (0, 0) degree 2 |
| Warnsdorff.CandidateLeIsTotalOrder | knights-tour/src/main.rs:31 | the derived order on (degree, x, y) is reflexive, antisymmetric, transitive and total |
| Warnsdorff.CandidatesUpTo | knights-tour/src/main.rs:113-119 | every candidate pairs an available square, one knight's jump from the current square, with its degree; there is at most one per offset |
| Warnsdorff.CandidatesComplete | knights-tour/src/main.rs:113-119 | every available `MOVES` target is among the candidates |
| Warnsdorff.MinCandidate | knights-tour/src/main.rs:121 | the chosen pair is a candidate and no candidate is smaller |
| Warnsdorff.MinCandidateUnique | knights-tour/src/main.rs:121-123 | a candidate no larger than all others is the chosen one, so the choice is unique |
| Warnsdorff.Advance | knights-tour/src/main.rs:107-129 | one iteration of the loop of `knights_tour`: a successful iteration keeps the board 8x8 and the knight on it and advances the step by one (its full contract is `Warnsdorff.AdvanceSpec`) |
| Warnsdorff.AdvanceSpec | knights-tour/src/main.rs:113-129 | one iteration fails exactly when no `MOVES` target is available; otherwise the new square is a knight's jump away, its cell was 0 and now holds the step, every other cell is unchanged and the step grows by one |
| Warnsdorff.AdvanceChoosesLeast | knights-tour/src/main.rs:121-123 | the square moved to is least in (degree, x, y) order among all available targets |
| KnightsProofs.TourIsKnightsTour | knights-tour/src/main.rs:96-131 | a returned board holds each of 1..64 exactly once, the squares of k and k + 1 are a knight's jump apart, and the start square holds 1 |
| KnightsProofs.RunFailsIffStuck | knights-tour/src/main.rs:121-126 | from any state the walk fails exactly when, after some number of steps, no target is available |
| KnightsProofs.TourTakes63Iterations | knights-tour/src/main.rs:103-131 | a returned board is the board after exactly 63 loop iterations; `None` means the walk was stuck after some number of iterations |
| KnightsSolver.KnightsTour | knights-tour/src/main.rs:96-132 | the in-place loop returns the functional tour, and any board it returns is a knight's tour that starts at the requested square, which holds 1 |
| KnightsSolver.Iteration | knights-tour/src/main.rs:107-129 | the loop body performs exactly one step of the functional walk |
| KnightsSolver.CollectCandidates | knights-tour/src/main.rs:107-119 | the vector built by the inner `for` is the candidate list, in `MOVES` order |
| KnightsSolver.FirstMoveFromCorner | knights-tour/src/main.rs:121-123 | from (0, 0) both targets have degree 5 and the first move goes to (1, 2), not to (2, 1), the first target in `MOVES` order |
| KnightsSolver.GuardRejects | knights-tour/src/main.rs:138 | for non-negative coordinates the guard rejects exactly the squares off the board |
| KnightsSolver.NegativeStartPassesGuard | knights-tour/src/main.rs:138-141 | the start (-1, 0) is off the board but passes the guard |
| KnightsSolver.Solve | knights-tour/src/main.rs:134-149 | with a full range check: an off-board start is rejected and only such a start is; for an on-board start the knight fails exactly when the solver returns nothing, which happens exactly when the walk gets stuck; a solved board is the one the solver returned, a knight's tour whose step 1 is on the requested square |
| Markov.TableMatchesSuccessors | markov/src/main.rs:24-27 | after the loop has seen the first n windows, a pair is a key exactly when one of those windows starts with it, and its list holds the third words of those windows, in text order |
| Markov.BuildTable | markov/src/main.rs:22-30 | a pair is a key exactly when some word follows it in the text, and its list holds all the words that follow it, in text order |
| Markov.TableHasEveryWindow | markov/src/main.rs:24-27 | for every i with i + 2 below the number of words, `words[i+2]` is listed under `(words[i], words[i+1])` |
| Markov.TableKeysAreWindowStarts | markov/src/main.rs:24-27 | the keys are exactly the pairs `(words[i], words[i+1])` with i + 2 below the number of words, and no list is empty |
| Markov.BuildTableTotal | markov/src/main.rs:24-27 | the lists hold two words fewer than the text in all |
| Markov.BuildTableFollowsText | markov/src/main.rs:24-27 | every listed word follows its key somewhere in the text |
| Markov.Pick | markov/src/main.rs:64 | the word chosen is from the list |
| Markov.StartWindow | markov/src/main.rs:51-55 | the starting window is three consecutive words of the text, and its leading pairs are keys |
| Markov.ShiftAsWritten | markov/src/main.rs:64-66 | as written, the step panics exactly when `(w0, w1)` is not a key; otherwise the new window is `(w1, x, x)` with `x` drawn for `(w0, w1)` |
| Markov.ShiftAsWrittenLeavesText | markov/src/main.rs:64-66 | on the text "a b c d e" the first step as written gives the window (b, c, c), which is not three consecutive words of the text |
| Markov.GenerateAsWritten | markov/src/main.rs:60-67 | the loop as written prints one word per iteration, the first being `w2` |
| Markov.AsWrittenTracksShift | markov/src/main.rs:60-67 | from a window `(u, v, v)` the loop as written prints what the corrected loop prints from any window ending in `u, v` |
| Markov.AsWrittenRedrawsFirstSlot | markov/src/main.rs:60-67 | the loop as written prints `w2`, then a second draw for the same position, then continues like the corrected chain |
| Markov.RunAsWrittenPrintsRepeat | markov/src/main.rs:60-67 | on "a b c d e" from the first window, three iterations as written print "c c d" |
| Markov.Shift | markov/src/main.rs:64-66 | corrected step: it panics exactly when `(w1, w2)` is not a key; otherwise the window becomes `(w1, w2, x)` with `x` listed under `(w1, w2)` |
| Markov.Generate | markov/src/main.rs:60-67 | the corrected loop prints one word per iteration, the first being `w2` |
| Markov.GenerateFollowsText | markov/src/main.rs:60-67 | with a table of the text, each printed word and the two before it are three consecutive words of the text |
| Markov.RunFollowsText | markov/src/main.rs:44-67 | the corrected `run` prints only trigrams of the text |
| Markov.RunPrintsText | markov/src/main.rs:60-67 | on "a b c d e" from the first window the corrected loop prints "c d" |
| PasswordGen.PoolSizes | password-gen/src/main.rs:10-38 | the pools hold 26, 26, 32 and 10 characters |
| PasswordGen.ClassOfPool | password-gen/src/main.rs:10-38 | the pools are the letters a-z, the letters A-Z, 32 non-alphanumeric symbols and the digits 0-9, pairwise disjoint |
| PasswordGen.Sample | password-gen/src/main.rs:50-55 | the six draws fall into consecutive blocks, one per class in the order lower, upper, special, digit, each as long as the class's weight |
| PasswordGen.SampleWeights | password-gen/src/main.rs:50-55 | of the six draws, two give lower case, two upper case, one special and one digit |
| PasswordGen.RandomChar | password-gen/src/main.rs:99-106 | the character drawn is from the pool of its class |
| PasswordGen.RandomCharCovers | password-gen/src/main.rs:99-106 | every character of a pool can be drawn |
| PasswordGen.GenPassword | password-gen/src/main.rs:109-133 | the password has length max(l, min_num + min_spec); its first min_num characters are digits, the next min_spec are specials, and all are from the four pools |
| PasswordGen.GenPasswordSlots | password-gen/src/main.rs:117-130 | each character belongs to the class its position calls for: digit, special or drawn class |
| PasswordGen.IgnoresCaseFlags | password-gen/src/main.rs:109 | the upper- and lower-case flags do not change the password |
| PasswordGen.CompLengthAsWritten | password-gen/src/main.rs:93-97 | as written, the test compares the length with the true sum of the minimums taken modulo 256 |
| PasswordGen.CompLength | password-gen/src/main.rs:93-97 | corrected test: acceptance implies the digit and special minimums fit in the length |
| PasswordGen.CompLengthAgrees | password-gen/src/main.rs:93-97 | when the sum fits in a `u8`, the test as written and the corrected test agree |
| PasswordGen.CompLengthMeansExactLength | password-gen/src/main.rs:93-97 | an accepted request yields a password of exactly the requested length; one rejected without case flags would yield a longer one |
| PasswordGen.CompLengthWrapAccepts | password-gen/src/main.rs:96 | length 12 with 200 digits and 60 specials passes the test as written, and the password has 260 characters |
| PasswordGen.MinCount | password-gen/src/main.rs:147-155 | a minimum is nonzero only when both its class flag and its value are given, and then it is that value |
| PasswordGen.MinCountDefaultUnused | password-gen/src/main.rs:147-155 | the minimum is the same whatever default `unwrap_or` is given, so the default `1` never takes effect |
| PasswordGen.Decide | password-gen/src/main.rs:135-164 | with the corrected test: the length defaults to 12, the request is rejected exactly when the minimums do not fit, and otherwise the password has the requested length with the digits and specials first |
| Maze.FlatIndexInjective | maze-generator/src/main.rs:49 | distinct cells have distinct flat indices `y * width + x` |
| Maze.Init | maze-generator/src/main.rs:13-33 | `init(height, width)` has `height * width` cells, and a cell is a passage exactly when it lies on the border |
| Maze.InitBorderOpen | maze-generator/src/main.rs:13-33 | every border cell of a new maze is a passage |
| Maze.CarveProbesInGrid | maze-generator/src/main.rs:60-67 | every `is_wall` probe `carve` makes from an interior cell reads inside the grid: the next cell always, and the cell after it whenever the next cell is a wall |
| Maze.WallIsInterior | maze-generator/src/main.rs:47-52 | under an open border, every wall is an interior cell |
| Maze.Open | maze-generator/src/main.rs:58 | writing a passage changes exactly that cell |
| Maze.OpenCountsDown | maze-generator/src/main.rs:69-70 | opening a wall removes exactly one wall |
| Maze.Carve | maze-generator/src/main.rs:55-75 | `carve` leaves the size unchanged, its start a passage and the border open; it never turns a passage into a wall, never changes a cell odd in both coordinates relative to its start, and never adds walls; when it returns, no direction from its start still has a wall followed by a wall; every other cell with the start's parity that it opened has been carved from to completion, and every cell it opened without that parity lies on a corridor: between a passage of the start's parity and a former wall it opened beyond |
| Maze.CarveDirection | maze-generator/src/main.rs:60-74 | one pass changes nothing unless the next cell and the cell after it are both walls, and then both become passages; it keeps the border open, never closes a passage and leaves that direction exhausted; every cell with the start's parity it opened has been carved from to completion, and every other cell it opened lies on a corridor |
| Maze.CarveThrough | maze-generator/src/main.rs:68-72 | opening the next wall and carving on from the wall beyond opens both cells and carves from the cell beyond to completion in all four directions; every cell opened with the start's parity has been carved from, every other cell opened lies on a corridor between two of them; no passage is closed and the number of walls strictly drops |
| Maze.GenerateAsWritten | maze-generator/src/main.rs:77-86 | as written, the maze is `height` wide and `width` high, with the size arguments swapped, and the two cells opened at the end are taken at the flat indices computed with the requested width |
| Maze.SwappedEntrance | maze-generator/src/main.rs:83 | in the 31-wide maze that `generate(39, 31)` builds, the entrance write hits cell (10, 1) instead of (2, 1) |
| Maze.Generate | maze-generator/src/main.rs:77-86 | corrected: the maze has the requested width and height and an open border, with passages at the entrance (2, 1), the start (2, 2) and the exit (width - 3, height - 2) |
| FizzBuzz.Decimal | fizzbuzz/src/main.rs:24 | a number prints as a non-empty string of digits with no leading zero |
| FizzBuzz.DecimalRoundTrip | fizzbuzz/src/main.rs:24 | reading the digits back gives the number |
| FizzBuzz.DecimalInjective | fizzbuzz/src/main.rs:24 | different numbers print differently |
| FizzBuzz.Line | fizzbuzz/src/main.rs:17-25 | "FizzBuzz" exactly when i is divisible by 3 and by 5; "Buzz" exactly when by 5 and not by 3; "Fizz" exactly when by 3 and not by 5; digits exactly when by neither |
| FizzBuzz.NumberLine | fizzbuzz/src/main.rs:23-24 | a number line is the decimal text of i and reads back as i |
| FizzBuzz.Lines | fizzbuzz/src/main.rs:16-26 | corrected loop: one line for each i = 1..n, in order |
| FizzBuzz.LinesAsWritten | fizzbuzz/src/main.rs:16-26 | as written, the loop prints the lines for 1..n when n < 65535 and no line when n = 65535 |
| FizzBuzz.LinesAsWrittenAgree | fizzbuzz/src/main.rs:16 | for n < 65535 the loop as written prints exactly those lines |
| FizzBuzz.LinesAsWrittenAtMax | fizzbuzz/src/main.rs:16 | at n = 65535 the bound `n + 1` wraps to 0 and the loop as written prints nothing, instead of 65535 lines |

## Left out

- port-scanner: TCP connections, threads and a channel, which are network and concurrency behaviour.
- Command-line parsing, all printing, the `Display` impl of the knight's board and `Maze::show`: these only format output.
- The random number generator itself: each draw is a parameter, as described above.
- markov: file reading, the regex-based `split_words` and the default file name and length. The word sequence is an input.
- The `process::exit` calls: only the decision before them is modelled (`KnightsSolver.Solve`, `PasswordGen.Decide`).
- Board cells and steps are `i32` in the source. They never exceed 64, so no overflow is possible there, and none is modelled.
- KnightsSolver.KnightsTour: requires an on-board start. A negative start panics at the `as usize` index on line 103, and that panic is not modelled.
- KnightsSolver.GuardRejects: at `x = i32::MAX` the sum `x + 1` overflows, which panics in a debug build and wraps in a release build. This is not modelled.
- Markov.Generate: a run that panics on a missing key is `None`. The words printed before the panic are not modelled.
- Markov.StartWindow: requires more than three words. With three words `gen_range(0, 0)` panics, and with fewer the subtraction underflows. Neither panic is modelled.
- Markov.Pick: the oracle value is reduced modulo the list length. Every index `choose` can return is reachable, but the uniform distribution is not modelled.
- PasswordGen.RandomChar: takes the index draw directly and requires it to be below the pool size, like `gen_range`. `CharOf` reduces an arbitrary draw modulo the pool size.
- PasswordGen.CompLengthAsWritten: models the wrap-around of a release build. A debug build panics on the overflow instead.
- PasswordGen.MinCount: the default `1` of `unwrap_or(1)` is unreachable, because the value is read only after `is_some()`. So `-n` without `--min-numbers` gives a minimum of 0; the model reproduces this.
- Maze.IsWall: requires non-negative coordinates whose flat index lies inside the data. Negative coordinates, which `as usize` would wrap, are excluded; `Maze.CarveProbesInGrid` shows that `carve` never produces them.
- Maze.Carve: requires an interior start and an open border. Both hold for the call from `generate` and for every recursive call.
- Maze.Generate: takes non-negative sizes of at least 4. The `i64 as usize` conversion of negative sizes is not modelled.
- Maze.Generate: does not restate the exploration and corridor properties of `Maze.Carve`, because the exit write at line 84 may open a cell that lies on no corridor.
- FizzBuzz.LinesAsWritten: models the wrap-around of a release build. A debug build panics on the overflow instead.

## Findings

| source | as written | input that shows it | evidently intended | confidence | as-written member | corrected member |
|---|---|---|---|---|---|---|
| knights-tour/src/main.rs:138 | the start guard rejects only coordinates above 7 | x = -1, y = 0 passes the guard; line 103 then indexes the board with `-1 as usize` and panics | reject any start outside 0..7 with the error message | high; not executed | KnightsSolver.GuardRejects, KnightsSolver.NegativeStartPassesGuard | KnightsSolver.Solve |
| markov/src/main.rs:64-66 | the next word is drawn for `(w0, w1)` and the window becomes `(w1, next, next)`: the first printed `w2` never enters a key, the chain continues from `(w0, w1)`, so the slot of `w2` is drawn a second time | text "a b c d e", start index 0: three iterations print "c c d", repeating "c" | draw for `(w1, w2)` and shift to `(w1, w2, next)`, so every printed word and the two before it are three consecutive words of the text (two iterations print "c d") | medium; not executed | Markov.ShiftAsWritten, Markov.GenerateAsWritten, Markov.RunAsWrittenPrintsRepeat | Markov.Shift, Markov.Generate, Markov.RunFollowsText |
| password-gen/src/main.rs:96 | the minimums are summed in `u8` | length 12, 200 digits, 60 specials: the sum wraps to 4 in a release build, the request is accepted and the password has 260 characters (a debug build panics) | compare against the true sum and reject | high; not executed | PasswordGen.CompLengthAsWritten, PasswordGen.CompLengthWrapAccepts | PasswordGen.CompLength, PasswordGen.Decide |
| maze-generator/src/main.rs:80 | `init(width, height)` is called against the signature `init(height, width)` | `generate(39, 31)` builds a maze 31 wide and 39 high; the entrance write at index 41 opens cell (10, 1) instead of (2, 1) | a maze `width` wide and `height` high with the entrance at (2, 1) | high; not executed | Maze.GenerateAsWritten, Maze.SwappedEntrance | Maze.Generate |
| fizzbuzz/src/main.rs:16 | the range end `n + 1` is computed in `u16` | n = 65535: the end wraps to 0 in a release build and nothing is printed (a debug build panics) | print 65535 lines | high; not executed | FizzBuzz.LinesAsWritten, FizzBuzz.LinesAsWrittenAtMax | FizzBuzz.Lines |

=== FILE: fizzbuzz.dfy ===
/** FizzBuzz: the line printed for each integer from 1 to n. */
module FizzBuzz {
  /** The command line's `u16`. */
  type U16 = x: int | 0 <= x < 0x1_0000

  function Digit(d: nat): (c: char)
    requires d < 10
    ensures '0' <= c <= '9'
  {
    ('0' as int + d) as char
  }

  predicate IsDigits(s: string)
  {
    forall k :: 0 <= k < |s| ==> '0' <= s[k] <= '9'
  }

  /** The decimal text `{}` formats a number as: digits only, no leading zero. */
  function Decimal(n: nat): (s: string)
    ensures |s| >= 1 && IsDigits(s)
    ensures s[0] == '0' ==> n == 0
    decreases n
  {
    if n < 10 then [Digit(n)] else Decimal(n / 10) + [Digit(n % 10)]
  }

  /** The value of a string of decimal digits, read most significant first. */
  function ParseDecimal(s: string): nat
    requires IsDigits(s)
  {
    if |s| == 0 then 0
    else ParseDecimal(s[..|s| - 1]) * 10 + (s[|s| - 1] as int - '0' as int)
  }

  /** Reading back the decimal text gives the number. */
  lemma {:induction false} DecimalRoundTrip(n: nat)
    ensures ParseDecimal(Decimal(n)) == n
    decreases n
  {
    var s := Decimal(n);
    if n >= 10 {
      DecimalRoundTrip(n / 10);
      assert s[..|s| - 1] == Decimal(n / 10);
    }
  }

  /** Different numbers print differently. */
  lemma DecimalInjective(a: nat, b: nat)
    ensures Decimal(a) == Decimal(b) ==> a == b
  {
    DecimalRoundTrip(a);
    DecimalRoundTrip(b);
  }

  lemma WordsAreNotDigits()
    ensures !IsDigits("FizzBuzz") && !IsDigits("Buzz") && !IsDigits("Fizz")
  {
    assert "FizzBuzz"[0] == 'F' && "Buzz"[0] == 'B' && "Fizz"[0] == 'F';
  }

  /** The line of the loop body for `i`, branch for branch. */
  function Line(i: nat): (line: string)
    ensures line == "FizzBuzz" <==> i % 5 == 0 && i % 3 == 0
    ensures line == "Buzz" <==> i % 5 == 0 && i % 3 != 0
    ensures line == "Fizz" <==> i % 5 != 0 && i % 3 == 0
    ensures i % 5 != 0 && i % 3 != 0 <==> IsDigits(line)
  {
    WordsAreNotDigits();
    if i % 5 == 0 && i % 3 == 0 then "FizzBuzz"
    else if i % 5 == 0 && !(i % 3 == 0) then "Buzz"
    else if !(i % 5 == 0) && i % 3 == 0 then "Fizz"
    else
      var s := Decimal(i);
      assert s != "FizzBuzz" && s != "Buzz" && s != "Fizz" by {
        assert '0' <= s[0] <= '9';
      }
      s
  }

  /** A number line is the number's decimal text and reads back as the number. */
  lemma NumberLine(i: nat)
    requires i % 5 != 0 && i % 3 != 0
    ensures Line(i) == Decimal(i) && ParseDecimal(Line(i)) == i
  {
    DecimalRoundTrip(i);
  }

  /** One line per `i = 1..n`, in order. */
  function Lines(n: U16): (out: seq<string>)
    ensures |out| == n
    ensures forall k :: 0 <= k < n ==> out[k] == Line(k + 1)
  {
    seq(n, k requires 0 <= k < n => Line(k + 1))
  }

  /** `n + 1` on `u16` as a release build computes it. */
  function WrapU16(v: int): (r: U16)
    ensures 0 <= v < 0x1_0000 ==> r == v
  {
    v % 0x1_0000
  }

  /** The loop `for i in 1..n + 1` as written: the bound wraps. */
  function LinesAsWritten(n: U16): (out: seq<string>)
    ensures |out| == if n < 0xFFFF then n else 0
    ensures forall k :: 0 <= k < |out| ==> out[k] == Line(k + 1)
  {
    var end := WrapU16(n + 1);
    seq(if end > 1 then end - 1 else 0, k requires 0 <= k => Line(k + 1))
  }

  /** Below the largest `u16` the loop as written prints the n lines. */
  lemma LinesAsWrittenAgree(n: U16)
    requires n < 0xFFFF
    ensures LinesAsWritten(n) == Lines(n)
  {
  }

  /** At n = 65535 the bound wraps to 0 and nothing is printed. */
  lemma LinesAsWrittenAtMax()
    ensures |LinesAsWritten(0xFFFF)| == 0 && |Lines(0xFFFF)| == 0xFFFF
  {
  }
}

=== FILE: knights_board.dfy ===
/**
  The board of the Warnsdorff knight's-tour solver: an 8x8 field of step
  numbers (0 meaning "not visited yet"), the eight knight offsets, and the two
  read-only queries the solver asks of the board.
 */
module KnightsBoard {

  /** Side length of the board (`BOARD_SIZE`). */
  const Size: int := 8

  /** Number of squares, the step number of the last square of a full tour. */
  const Cells: int := 64

  /** The knight offsets, in the order the solver enumerates them (`MOVES`). */
  const Moves: seq<(int, int)> :=
    [(2, 1), (1, 2), (-1, 2), (-2, 1), (-2, -1), (-1, -2), (1, -2), (2, -1)]

  /** A coordinate; `x` selects the row of the field and `y` the column. */
  datatype Point = Point(x: int, y: int)

  /** `Point::mov`: a new point displaced by the offset `d`. */
  function Mov(p: Point, d: (int, int)): Point
  {
    Point(p.x + d.0, p.y + d.1)
  }

  /**
    The offsets come in opposite pairs: offset k + 4 undoes offset k, so
    every knight move can be retraced with a move from the same table.
   */
  lemma MovReverses(p: Point, k: nat)
    requires k < |Moves|
    ensures Mov(Mov(p, Moves[k]), Moves[(k + 4) % 8]) == p
    ensures Mov(p, Moves[k]) != p
  {
  }

  predicate InBounds(p: Point)
  {
    0 <= p.x < Size && 0 <= p.y < Size
  }

  function Abs(n: int): nat
  {
    if n < 0 then -n else n
  }

  /** A knight move, stated independently of the `Moves` table. */
  predicate IsKnightMove(p: Point, q: Point)
  {
    var dx := Abs(q.x - p.x);
    var dy := Abs(q.y - p.y);
    (dx == 1 && dy == 2) || (dx == 2 && dy == 1)
  }

  /** Every entry of `Moves` is a knight move ... */
  lemma MovesAreKnightMoves(p: Point)
    ensures forall k :: 0 <= k < |Moves| ==> IsKnightMove(p, Mov(p, Moves[k]))
  {
  }

  /** ... and every knight move is an entry of `Moves`. */
  lemma KnightMovesAreMoves(p: Point, q: Point)
    requires IsKnightMove(p, q)
    ensures exists k :: 0 <= k < |Moves| && Mov(p, Moves[k]) == q
  {
    var dx, dy := q.x - p.x, q.y - p.y;
    var k :=
      if dx == 2 && dy == 1 then 0
      else if dx == 1 && dy == 2 then 1
      else if dx == -1 && dy == 2 then 2
      else if dx == -2 && dy == 1 then 3
      else if dx == -2 && dy == -1 then 4
      else if dx == -1 && dy == -2 then 5
      else if dx == 1 && dy == -2 then 6
      else 7;
    assert Mov(p, Moves[k]) == q;
  }

  /** `Board`: `field[x][y]` is the step on which square (x, y) was reached, or 0. */
  datatype Board = Board(field: seq<seq<int>>)

  /** The field has the fixed 8x8 shape of `[[i32; 8]; 8]`. */
  predicate Shaped(b: Board)
  {
    |b.field| == Size && forall i :: 0 <= i < Size ==> |b.field[i]| == Size
  }

  function Cell(b: Board, p: Point): int
    requires Shaped(b) && InBounds(p)
  {
    b.field[p.x][p.y]
  }

  /** `Board::new`: every square unvisited. */
  function NewBoard(): (b: Board)
    ensures Shaped(b)
    ensures forall p :: InBounds(p) ==> Cell(b, p) == 0
  {
    Board(seq(Size, _ => seq(Size, _ => 0)))
  }

  /** The assignment `board.field[p.x][p.y] = v`: square p holds v, every other square is unchanged. */
  function Mark(b: Board, p: Point, v: int): (r: Board)
    requires Shaped(b) && InBounds(p)
    ensures Shaped(r)
    ensures Cell(r, p) == v
    ensures forall q {:trigger Cell(r, q)} :: InBounds(q) && q != p ==> Cell(r, q) == Cell(b, q)
  {
    Board(b.field[p.x := b.field[p.x][p.y := v]])
  }

  /**
    `available`: p is on the board and unvisited. The range tests come first,
    so the field is only read at an in-range point.
   */
  function Available(b: Board, p: Point): (r: bool)
    requires Shaped(b)
    ensures r ==> InBounds(p)
  {
    0 <= p.x && p.x < Size && 0 <= p.y && p.y < Size && b.field[p.x][p.y] == 0
  }

  /** An off-board point is never available, whatever the board holds. */
  lemma AvailableOffBoard(b: Board, p: Point)
    requires Shaped(b)
    ensures Available(b, p) <==> InBounds(p) && Cell(b, p) == 0
    ensures !InBounds(p) ==> !Available(b, p)
  {
  }

  /** The loop of `count_degree` after its first k offsets. */
  function DegreeUpTo(b: Board, p: Point, k: nat): (r: int)
    requires Shaped(b) && k <= |Moves|
    ensures 0 <= r <= k
  {
    if k == 0 then 0
    else DegreeUpTo(b, p, k - 1) + (if Available(b, Mov(p, Moves[k - 1])) then 1 else 0)
  }

  /** `count_degree`: how many of the eight knight targets of p are available. */
  function CountDegree(b: Board, p: Point): (r: int)
    requires Shaped(b)
    ensures 0 <= r <= |Moves|
  {
    DegreeUpTo(b, p, |Moves|)
  }

  /** The indices of the offsets whose target from p is available. */
  function AvailableMoves(b: Board, p: Point, k: nat): set<nat>
    requires Shaped(b) && k <= |Moves|
  {
    set j: nat | j < k && Available(b, Mov(p, Moves[j]))
  }

  /** Adding one candidate index to a set of smaller ones grows its size by one exactly when it is added. */
  lemma CardinalityStep(prev: set<nat>, cur: set<nat>, x: nat, add: bool)
    requires x !in prev
    requires forall j :: j in cur <==> j in prev || (add && j == x)
    ensures |cur| == |prev| + (if add then 1 else 0)
  {
    if add {
      assert cur == prev + {x};
    } else {
      assert cur == prev;
    }
  }

  lemma {:induction false} DegreeUpToIsCardinality(b: Board, p: Point, k: nat)
    requires Shaped(b) && k <= |Moves|
    ensures DegreeUpTo(b, p, k) == |AvailableMoves(b, p, k)|
  {
    if k == 0 {
      assert AvailableMoves(b, p, 0) == {};
    } else {
      DegreeUpToIsCardinality(b, p, k - 1);
      var add := Available(b, Mov(p, Moves[k - 1]));
      CardinalityStep(AvailableMoves(b, p, k - 1), AvailableMoves(b, p, k), k - 1, add);
    }
  }

  /** The degree is exactly the number of offsets whose target is available. */
  lemma CountDegreeIsCardinality(b: Board, p: Point)
    requires Shaped(b)
    ensures CountDegree(b, p) == |AvailableMoves(b, p, |Moves|)|
  {
    DegreeUpToIsCardinality(b, p, |Moves|);
  }

  /** Degrees on the empty board: 8 for a central square, 2 for a corner. */
  lemma DegreesOnEmptyBoard()
    ensures CountDegree(NewBoard(), Point(4, 4)) == 8
    ensures CountDegree(NewBoard(), Point(0, 0)) == 2
  {
    var b := NewBoard();
    var c := Point(4, 4);
    assert forall k :: 0 <= k < |Moves| ==> Available(b, Mov(c, Moves[k]));
    assert DegreeUpTo(b, c, 1) == 1;
    assert DegreeUpTo(b, c, 2) == 2;
    assert DegreeUpTo(b, c, 3) == 3;
    assert DegreeUpTo(b, c, 4) == 4;
    assert DegreeUpTo(b, c, 5) == 5;
    assert DegreeUpTo(b, c, 6) == 6;
    assert DegreeUpTo(b, c, 7) == 7;
    var o := Point(0, 0);
    assert DegreeUpTo(b, o, 1) == 1;
    assert DegreeUpTo(b, o, 2) == 2;
    assert DegreeUpTo(b, o, 3) == 2;
    assert DegreeUpTo(b, o, 4) == 2;
    assert DegreeUpTo(b, o, 5) == 2;
    assert DegreeUpTo(b, o, 6) == 2;
    assert DegreeUpTo(b, o, 7) == 2;
  }
}

=== FILE: knights_proofs.dfy ===
/**
  What a run of the solver guarantees: a returned board is a knight's tour
  (each of 1..64 on exactly one square, consecutive steps a knight move apart),
  a failure is a dead end reached after finitely many steps, and the loop ends
  after at most 63 iterations.
 */
module KnightsProofs {
  import opened Options
  import opened KnightsBoard
  import opened Warnsdorff

  /** Some square holds step k. */
  ghost predicate Visited(b: Board, k: int)
    requires Shaped(b)
  {
    exists p :: InBounds(p) && Cell(b, p) == k
  }

  /** A complete tour: a bijection between squares and 1..64 along knight moves. */
  ghost predicate IsTour(b: Board)
    requires Shaped(b)
  {
    && (forall p :: InBounds(p) ==> 1 <= Cell(b, p) <= Cells)
    && (forall p, q :: InBounds(p) && InBounds(q) && p != q ==> Cell(b, p) != Cell(b, q))
    && (forall k :: 1 <= k <= Cells ==> Visited(b, k))
    && (forall p, q :: InBounds(p) && InBounds(q) && Cell(b, q) == Cell(b, p) + 1 ==> IsKnightMove(p, q))
  }

  /** Number of zero entries of a row. */
  function RowZeros(row: seq<int>): nat
  {
    if |row| == 0 then 0 else (if row[0] == 0 then 1 else 0) + RowZeros(row[1..])
  }

  /** Number of unvisited squares of a field. */
  function FieldZeros(field: seq<seq<int>>): nat
  {
    if |field| == 0 then 0 else RowZeros(field[0]) + FieldZeros(field[1..])
  }

  lemma {:induction false} RowZerosUpdate(row: seq<int>, i: nat, v: int)
    requires i < |row|
    ensures RowZeros(row[i := v]) + (if row[i] == 0 then 1 else 0) == RowZeros(row) + (if v == 0 then 1 else 0)
  {
    if i > 0 {
      assert row[i := v][1..] == row[1..][i - 1 := v];
      RowZerosUpdate(row[1..], i - 1, v);
    } else {
      assert row[i := v][1..] == row[1..];
    }
  }

  lemma {:induction false} FieldZerosUpdate(field: seq<seq<int>>, i: nat, row: seq<int>)
    requires i < |field|
    ensures FieldZeros(field[i := row]) + RowZeros(field[i]) == FieldZeros(field) + RowZeros(row)
  {
    if i > 0 {
      assert field[i := row][1..] == field[1..][i - 1 := row];
      FieldZerosUpdate(field[1..], i - 1, row);
    } else {
      assert field[i := row][1..] == field[1..];
    }
  }

  /** Marking an unvisited square with a non-zero step removes exactly one zero. */
  lemma MarkRemovesOneZero(b: Board, p: Point, v: int)
    requires Shaped(b) && InBounds(p) && Cell(b, p) == 0 && v != 0
    ensures FieldZeros(Mark(b, p, v).field) + 1 == FieldZeros(b.field)
  {
    RowZerosUpdate(b.field[p.x], p.y, v);
    FieldZerosUpdate(b.field, p.x, b.field[p.x][p.y := v]);
  }

  lemma {:induction false} ZeroEntryIsCounted(row: seq<int>, i: nat)
    requires i < |row| && row[i] == 0
    ensures RowZeros(row) > 0
  {
    if i > 0 {
      ZeroEntryIsCounted(row[1..], i - 1);
    }
  }

  lemma {:induction false} ZeroCellIsCounted(field: seq<seq<int>>, i: nat, j: nat)
    requires i < |field| && j < |field[i]| && field[i][j] == 0
    ensures FieldZeros(field) > 0
  {
    if i > 0 {
      ZeroCellIsCounted(field[1..], i - 1, j);
    } else {
      ZeroEntryIsCounted(field[0], j);
    }
  }

  lemma {:induction false} ZeroRowCount(n: nat)
    ensures RowZeros(seq(n, _ => 0)) == n
  {
    if n > 0 {
      assert seq(n, _ => 0)[1..] == seq(n - 1, _ => 0);
      ZeroRowCount(n - 1);
    }
  }

  lemma {:induction false} ZeroFieldCount(m: nat, n: nat)
    ensures FieldZeros(seq(m, _ => seq(n, _ => 0))) == m * n
  {
    if m > 0 {
      assert seq(m, _ => seq(n, _ => 0))[1..] == seq(m - 1, _ => seq(n, _ => 0));
      ZeroRowCount(n);
      ZeroFieldCount(m - 1, n);
    }
  }

  /**
    The invariant of a partial run: path[i] is the square reached on step i + 1,
    the squares off the path are unvisited, consecutive path squares are a
    knight move apart, and the knight stands on the last one.
   */
  ghost predicate PathInv(s: State, path: seq<Point>)
  {
    && Good(s)
    && |path| == s.step - 1
    && (forall i :: 0 <= i < |path| ==> InBounds(path[i]) && Cell(s.board, path[i]) == i + 1)
    && (forall q :: InBounds(q) && q !in path ==> Cell(s.board, q) == 0)
    && (forall i :: 0 <= i < |path| - 1 ==> IsKnightMove(path[i], path[i + 1]))
    && s.pos == path[|path| - 1]
    && FieldZeros(s.board.field) + |path| == Cells
  }

  lemma StartPathInv(x: int, y: int)
    requires InBounds(Point(x, y))
    ensures PathInv(Start(x, y), [Point(x, y)])
  {
    ZeroFieldCount(Size, Size);
    MarkRemovesOneZero(NewBoard(), Point(x, y), 1);
  }

  lemma AdvancePathInv(s: State, path: seq<Point>)
    requires PathInv(s, path) && s.step <= Cells && Advance(s).Some?
    ensures PathInv(Advance(s).value, path + [Advance(s).value.pos])
  {
    AdvanceSpec(s);
    var t := Advance(s).value;
    var q := t.pos;
    assert q !in path;
    assert t.board == Mark(s.board, q, s.step);
    MarkRemovesOneZero(s.board, q, s.step);
  }

  /** Once 64 steps are placed, the path covers every square: an unvisited square would leave a zero uncounted. */
  lemma FullPathCovers(s: State, path: seq<Point>)
    requires PathInv(s, path) && s.step == Cells + 1
    ensures forall q :: InBounds(q) ==> q in path
  {
    forall q | InBounds(q)
      ensures q in path
    {
      if q !in path {
        ZeroCellIsCounted(s.board.field, q.x, q.y);
      }
    }
  }

  lemma CoveringPathNumbers(s: State, path: seq<Point>)
    requires PathInv(s, path) && s.step == Cells + 1
    requires forall q :: InBounds(q) ==> q in path
    ensures forall p :: InBounds(p) ==> 1 <= Cell(s.board, p) <= Cells
    ensures forall p, q :: InBounds(p) && InBounds(q) && p != q ==> Cell(s.board, p) != Cell(s.board, q)
  {
    var b := s.board;
    forall p | InBounds(p)
      ensures 1 <= Cell(b, p) <= Cells
    {
      var i :| 0 <= i < |path| && path[i] == p;
    }
    forall p, q | InBounds(p) && InBounds(q) && Cell(b, p) == Cell(b, q)
      ensures p == q
    {
      var i :| 0 <= i < |path| && path[i] == p;
      var j :| 0 <= j < |path| && path[j] == q;
    }
  }

  lemma CoveringPathSteps(s: State, path: seq<Point>)
    requires PathInv(s, path) && s.step == Cells + 1
    requires forall q :: InBounds(q) ==> q in path
    ensures forall k :: 1 <= k <= Cells ==> Visited(s.board, k)
    ensures forall p, q :: InBounds(p) && InBounds(q) && Cell(s.board, q) == Cell(s.board, p) + 1 ==> IsKnightMove(p, q)
  {
    var b := s.board;
    forall k | 1 <= k <= Cells
      ensures Visited(b, k)
    {
      assert InBounds(path[k - 1]) && Cell(b, path[k - 1]) == k;
    }
    forall p, q | InBounds(p) && InBounds(q) && Cell(b, q) == Cell(b, p) + 1
      ensures IsKnightMove(p, q)
    {
      var i :| 0 <= i < |path| && path[i] == p;
      var j :| 0 <= j < |path| && path[j] == q;
      assert j == i + 1;
    }
  }

  /** A board on which all 64 steps have been placed along a path is a tour. */
  lemma FullPathIsTour(s: State, path: seq<Point>)
    requires PathInv(s, path) && s.step == Cells + 1
    ensures IsTour(s.board)
  {
    FullPathCovers(s, path);
    CoveringPathNumbers(s, path);
    CoveringPathSteps(s, path);
  }

  lemma {:induction false} RunYieldsTour(s: State, path: seq<Point>)
    requires PathInv(s, path)
    ensures Run(s).Some? ==> IsTour(Run(s).value)
    decreases Cells + 1 - s.step
  {
    if s.step > Cells {
      FullPathIsTour(s, path);
    } else {
      var r := Advance(s);
      if r.Some? {
        var t := r.value;
        assert Run(s) == Run(t);
        AdvancePathInv(s, path);
        RunYieldsTour(t, path + [t.pos]);
      }
    }
  }

  /** Whenever the solver returns a board, that board is a complete knight's tour. */
  lemma TourIsKnightsTour(x: int, y: int)
    requires InBounds(Point(x, y))
    ensures Tour(x, y).Some? ==> Shaped(Tour(x, y).value) && IsTour(Tour(x, y).value)
    ensures Tour(x, y).Some? ==> Cell(Tour(x, y).value, Point(x, y)) == 1
  {
    StartPathInv(x, y);
    RunYieldsTour(Start(x, y), [Point(x, y)]);
    RunKeepsStart(Start(x, y), [Point(x, y)]);
  }

  /** The first square of the path keeps its step number 1 to the end of the run. */
  lemma {:induction false} RunKeepsStart(s: State, path: seq<Point>)
    requires PathInv(s, path)
    ensures Run(s).Some? ==> Shaped(Run(s).value) && Cell(Run(s).value, path[0]) == 1
    decreases Cells + 1 - s.step
  {
    if s.step <= Cells {
      var r := Advance(s);
      if r.Some? {
        var t := r.value;
        assert Run(s) == Run(t);
        AdvancePathInv(s, path);
        RunKeepsStart(t, path + [t.pos]);
      }
    }
  }

  /** The loop is at a dead end after exactly n iterations from s. */
  ghost predicate StuckAfter(s: State, n: nat)
    requires Good(s)
  {
    var r := Iterate(s, n);
    r.Some? && r.value.step <= Cells && Stuck(r.value)
  }

  /** Some number of iterations from s leads to a dead end. */
  ghost predicate FailsWithin(s: State)
    requires Good(s)
  {
    exists n: nat :: StuckAfter(s, n)
  }

  /**
    The loop fails exactly when, after some number of iterations, it stands
    on a square with no available knight target.
   */
  lemma {:induction false} RunFailsIffStuck(s: State)
    requires Good(s)
    ensures Run(s).None? <==> FailsWithin(s)
    decreases Cells + 1 - s.step
  {
    if s.step > Cells {
      forall n: nat | Iterate(s, n).Some?
        ensures Iterate(s, n).value.step > Cells
      {
      }
    } else {
      var r := Advance(s);
      AdvanceSpec(s);
      if r.None? {
        assert StuckAfter(s, 0);
      } else {
        var t := r.value;
        assert Run(s) == Run(t);
        RunFailsIffStuck(t);
        if Run(t).None? {
          var n: nat :| StuckAfter(t, n);
          IterateShift(s, n);
          assert StuckAfter(s, n + 1);
        } else {
          forall n: nat | StuckAfter(s, n)
            ensures false
          {
            if n > 0 {
              IterateShift(s, n - 1);
              assert StuckAfter(t, n - 1);
            }
          }
        }
      }
    }
  }

  /** Iterating n + 1 times is one iteration followed by n. */
  lemma IterateShift(s: State, n: nat)
    requires Good(s) && s.step <= Cells && Advance(s).Some?
    ensures Iterate(s, n + 1) == Iterate(Advance(s).value, n)
  {
  }

  /** A successful run makes exactly Cells + 1 - step iterations, and its board is the last state's. */
  lemma {:induction false} RunIsIteration(s: State)
    requires Good(s)
    ensures Run(s).Some? ==>
      Iterate(s, Cells + 1 - s.step).Some? && Run(s).value == Iterate(s, Cells + 1 - s.step).value.board
    decreases Cells + 1 - s.step
  {
    if s.step <= Cells && Advance(s).Some? {
      RunIsIteration(Advance(s).value);
    }
  }

  /** From any start, a returned tour is the board after exactly 63 iterations of the loop. */
  lemma TourTakes63Iterations(x: int, y: int)
    requires InBounds(Point(x, y))
    ensures Tour(x, y).Some? ==> Iterate(Start(x, y), 63).Some? && Tour(x, y).value == Iterate(Start(x, y), 63).value.board
    ensures Tour(x, y).None? <==> exists n: nat :: StuckAfter(Start(x, y), n)
  {
    RunIsIteration(Start(x, y));
    RunFailsIffStuck(Start(x, y));
  }
}

=== FILE: knights_solver.dfy ===
/**
  The entry points of the knight's-tour program: the imperative loop of
  `knights_tour`, the start-square guard of `main`, and the outcome `main`
  reports.
 */
module KnightsSolver {
  import opened Options
  import opened KnightsBoard
  import opened Warnsdorff
  import opened KnightsProofs

  /**
    `knights_tour(x, y)` as the source writes it: one board updated in place,
    the candidate vector rebuilt on every iteration and its least element
    taken. It computes the functional `Tour`, so a returned board is a tour,
    and it starts at (x, y): that square holds step 1.
   */
  method KnightsTour(x: int, y: int) returns (r: Option<Board>)
    requires InBounds(Point(x, y))
    ensures r == Tour(x, y)
    ensures r.Some? ==> Shaped(r.value) && IsTour(r.value)
    ensures r.Some? ==> Cell(r.value, Point(x, y)) == 1
  {
    var board := NewBoard();
    var p := Point(x, y);
    var step := 1;
    board := Mark(board, p, step);
    step := step + 1;
    while step <= Cells
      invariant 2 <= step <= Cells + 1
      invariant Shaped(board) && InBounds(p)
      invariant Run(State(board, p, step)) == Tour(x, y)
      decreases Cells + 1 - step
    {
      var moved := Iteration(board, p, step);
      if moved.None? {
        return None;
      }
      board, p := moved.value.board, moved.value.pos;
      step := step + 1;
    }
    r := Some(board);
    TourIsKnightsTour(x, y);
  }

  /**
    The body of the `while` loop: collect the candidates, fail if there are
    none, otherwise move to the least one and mark it with the step number.
   */
  method Iteration(board: Board, p: Point, step: int) returns (moved: Option<State>)
    requires Good(State(board, p, step)) && step <= Cells
    ensures moved == Advance(State(board, p, step))
    ensures moved.Some? ==> Good(moved.value) && moved.value.step == step + 1
    ensures Run(State(board, p, step)) == if moved.None? then None else Run(moved.value)
  {
    var candidates := CollectCandidates(board, p);
    if |candidates| == 0 {
      moved := None;
    } else {
      var (_, adj) := MinCandidate(candidates);
      moved := Some(State(Mark(board, adj, step), adj, step + 1));
    }
  }

  /** The inner `for` loop: every available target paired with its degree, in `Moves` order. */
  method CollectCandidates(board: Board, p: Point) returns (candidates: seq<Candidate>)
    requires Shaped(board)
    ensures candidates == Candidates(board, p)
  {
    candidates := [];
    var k := 0;
    while k < |Moves|
      invariant 0 <= k <= |Moves|
      invariant candidates == CandidatesUpTo(board, p, k)
    {
      var adj := Mov(p, Moves[k]);
      if Available(board, adj) {
        var degree := CountDegree(board, adj);
        candidates := candidates + [(degree, adj)];
      }
      k := k + 1;
    }
  }

  /** On the board after the start at the corner, the two targets of the corner both have degree 5. */
  lemma CornerTargetDegrees()
    ensures CountDegree(Start(0, 0).board, Point(2, 1)) == 5
    ensures CountDegree(Start(0, 0).board, Point(1, 2)) == 5
  {
    var b := Start(0, 0).board;
    var a, c := Point(2, 1), Point(1, 2);
    assert !Available(b, Point(0, 0));
    assert DegreeUpTo(b, a, 1) == 1;
    assert DegreeUpTo(b, a, 2) == 2;
    assert DegreeUpTo(b, a, 3) == 3;
    assert DegreeUpTo(b, a, 4) == 4;
    assert DegreeUpTo(b, a, 5) == 4;
    assert DegreeUpTo(b, a, 6) == 4;
    assert DegreeUpTo(b, a, 7) == 4;
    assert DegreeUpTo(b, c, 1) == 1;
    assert DegreeUpTo(b, c, 2) == 2;
    assert DegreeUpTo(b, c, 3) == 3;
    assert DegreeUpTo(b, c, 4) == 3;
    assert DegreeUpTo(b, c, 5) == 3;
    assert DegreeUpTo(b, c, 6) == 3;
    assert DegreeUpTo(b, c, 7) == 4;
  }

  /** From the corner only offsets 0 and 1 stay on the board, so those two targets are the candidates. */
  lemma CornerCandidates(b: Board, da: int, dc: int)
    requires Shaped(b) && Available(b, Point(2, 1)) && Available(b, Point(1, 2))
    requires CountDegree(b, Point(2, 1)) == da && CountDegree(b, Point(1, 2)) == dc
    ensures Candidates(b, Point(0, 0)) == [(da, Point(2, 1)), (dc, Point(1, 2))]
  {
    var o, a, c := Point(0, 0), Point(2, 1), Point(1, 2);
    var cs := [(da, a), (dc, c)];
    assert CandidatesUpTo(b, o, 1) == [(da, a)];
    assert CandidatesUpTo(b, o, 2) == cs;
    assert CandidatesUpTo(b, o, 3) == cs;
    assert CandidatesUpTo(b, o, 4) == cs;
    assert CandidatesUpTo(b, o, 5) == cs;
    assert CandidatesUpTo(b, o, 6) == cs;
    assert CandidatesUpTo(b, o, 7) == cs;
  }

  /**
    Ties on degree go to the smaller point, not to the earlier offset: from the
    corner, (2, 1) (offset 0) and (1, 2) (offset 1) tie on degree 5, and the
    knight moves to (1, 2).
   */
  lemma FirstMoveFromCorner()
    ensures Advance(Start(0, 0)).Some?
    ensures Advance(Start(0, 0)).value.pos == Point(1, 2)
    ensures Mov(Point(0, 0), Moves[0]) == Point(2, 1)
    ensures CountDegree(Start(0, 0).board, Point(2, 1)) == CountDegree(Start(0, 0).board, Point(1, 2))
  {
    var s := Start(0, 0);
    var a, c := Point(2, 1), Point(1, 2);
    CornerTargetDegrees();
    assert Available(s.board, a) && Available(s.board, c);
    CornerCandidates(s.board, 5, 5);
    assert MinCandidate([(5, a), (5, c)]) == (5, c);
  }

  /** The guard in `main`: it rejects a start with `x + 1 > 8` or `y + 1 > 8`, and nothing else. */
  function GuardRejects(x: int, y: int): (rejected: bool)
    ensures x >= 0 && y >= 0 ==> (rejected <==> !InBounds(Point(x, y)))
  {
    x + 1 > Size || y + 1 > Size
  }

  /** The guard lets a negative start through, although it is off the board. */
  lemma NegativeStartPassesGuard()
    ensures !GuardRejects(-1, 0) && !InBounds(Point(-1, 0))
  {
  }

  /** What the program reports for a start square. */
  datatype Outcome = BadStart | NoTour | Solved(board: Board)

  /**
    `main` with the guard corrected to the full range check: an off-board
    start is reported as such and never reaches the solver; otherwise the
    outcome is the solver's: no tour exactly when the walk gets stuck, and
    the board printed is the one the solver returned, a tour from the start
    square.
   */
  function Solve(x: int, y: int): (r: Outcome)
    ensures r.BadStart? <==> !(0 <= x < Size && 0 <= y < Size)
    ensures r.NoTour? ==> InBounds(Point(x, y)) && exists n: nat :: StuckAfter(Start(x, y), n)
    ensures r.Solved? ==> Shaped(r.board) && IsTour(r.board)
    ensures InBounds(Point(x, y)) ==> (r.NoTour? <==> Tour(x, y).None?)
    ensures r.Solved? ==> Tour(x, y) == Some(r.board)
    ensures r.Solved? ==> Shaped(r.board) && InBounds(Point(x, y)) && Cell(r.board, Point(x, y)) == 1
  {
    if !InBounds(Point(x, y)) then BadStart
    else
      TourIsKnightsTour(x, y);
      TourTakes63Iterations(x, y);
      match Tour(x, y)
      case None => NoTour
      case Some(b) => Solved(b)
  }
}

=== FILE: knights_tour.dfy ===
/**
  The greedy solver `knights_tour`: starting from one square it repeatedly moves
  to the available knight target of least degree (Warnsdorff's rule), never
  backtracking, and either fills all 64 squares or stops at a dead end.
 */
module Warnsdorff {
  import opened Options
  import opened KnightsBoard

  /** A candidate move `(degree, adj)`, the element type of `candidates`. */
  type Candidate = (int, Point)

  /** The derived `Ord` of `Point`: by `x`, then by `y`. */
  predicate PointLe(p: Point, q: Point)
  {
    p.x < q.x || (p.x == q.x && p.y <= q.y)
  }

  /** The derived `Ord` of the tuple `(i32, Point)`: by degree, then by point. */
  predicate CandidateLe(a: Candidate, c: Candidate)
  {
    a.0 < c.0 || (a.0 == c.0 && PointLe(a.1, c.1))
  }

  /** `CandidateLe` is a total order, so a least candidate is unique. */
  lemma CandidateLeIsTotalOrder(a: Candidate, c: Candidate, e: Candidate)
    ensures CandidateLe(a, a)
    ensures CandidateLe(a, c) && CandidateLe(c, a) ==> a == c
    ensures CandidateLe(a, c) && CandidateLe(c, e) ==> CandidateLe(a, e)
    ensures CandidateLe(a, c) || CandidateLe(c, a)
  {
  }

  /**
    The candidate vector after the first k offsets of the inner loop: every
    available target, paired with its degree, in `Moves` order.
   */
  function CandidatesUpTo(b: Board, p: Point, k: nat): (cs: seq<Candidate>)
    requires Shaped(b) && k <= |Moves|
    ensures |cs| <= k
    ensures forall c {:trigger c in cs} :: c in cs ==> Available(b, c.1) && c.0 == CountDegree(b, c.1) && IsKnightMove(p, c.1)
  {
    if k == 0 then []
    else
      var adj := Mov(p, Moves[k - 1]);
      MovesAreKnightMoves(p);
      CandidatesUpTo(b, p, k - 1) + (if Available(b, adj) then [(CountDegree(b, adj), adj)] else [])
  }

  /** Conversely, every available target up to k is among the candidates. */
  lemma {:induction false} CandidatesComplete(b: Board, p: Point, k: nat)
    requires Shaped(b) && k <= |Moves|
    ensures forall j :: 0 <= j < k && Available(b, Mov(p, Moves[j])) ==>
      (CountDegree(b, Mov(p, Moves[j])), Mov(p, Moves[j])) in CandidatesUpTo(b, p, k)
  {
    if k > 0 {
      CandidatesComplete(b, p, k - 1);
    }
  }

  function Candidates(b: Board, p: Point): seq<Candidate>
    requires Shaped(b)
  {
    CandidatesUpTo(b, p, |Moves|)
  }

  /** `candidates.iter().min()` on a non-empty vector: the least candidate, which is an element. */
  function MinCandidate(cs: seq<Candidate>): (m: Candidate)
    requires |cs| > 0
    ensures m in cs
    ensures forall c :: c in cs ==> CandidateLe(m, c)
  {
    if |cs| == 1 then cs[0]
    else
      var rest := MinCandidate(cs[1..]);
      CandidateLeIsTotalOrder(cs[0], rest, cs[0]);
      assert forall c :: c in cs ==> c == cs[0] || c in cs[1..];
      if CandidateLe(cs[0], rest) then cs[0] else rest
  }

  /** Any least candidate is the one `MinCandidate` picks: the choice is deterministic. */
  lemma MinCandidateUnique(cs: seq<Candidate>, m: Candidate)
    requires m in cs && forall c :: c in cs ==> CandidateLe(m, c)
    ensures m == MinCandidate(cs)
  {
  }

  /** The solver state between iterations: the board, the knight, the next step number. */
  datatype State = State(board: Board, pos: Point, step: int)

  predicate Good(s: State)
  {
    Shaped(s.board) && InBounds(s.pos) && 2 <= s.step <= Cells + 1
  }

  /** No offset from the knight's square reaches an available square. */
  predicate Stuck(s: State)
    requires Shaped(s.board)
  {
    forall k :: 0 <= k < |Moves| ==> !Available(s.board, Mov(s.pos, Moves[k]))
  }

  /** One iteration of the `while` loop; `None` is the early `return None`. */
  function Advance(s: State): (r: Option<State>)
    requires Good(s) && s.step <= Cells
    ensures r.Some? ==> Good(r.value) && r.value.step == s.step + 1
  {
    var cs := Candidates(s.board, s.pos);
    if |cs| == 0 then
      None
    else
      var q := MinCandidate(cs).1;
      assert MinCandidate(cs) in cs;
      Some(State(Mark(s.board, q, s.step), q, s.step + 1))
  }

  /**
    An iteration fails exactly at a dead end. Otherwise it writes the step
    number into one square that was 0, a knight move away, leaves every other
    square alone, moves the knight there and increments the step.
   */
  lemma AdvanceSpec(s: State)
    requires Good(s) && s.step <= Cells
    ensures Advance(s).None? <==> Stuck(s)
    ensures Advance(s).Some? ==>
      var t := Advance(s).value;
      && IsKnightMove(s.pos, t.pos)
      && Cell(s.board, t.pos) == 0
      && Cell(t.board, t.pos) == s.step
      && (forall q {:trigger Cell(t.board, q)} :: InBounds(q) && q != t.pos ==> Cell(t.board, q) == Cell(s.board, q))
  {
    var cs := Candidates(s.board, s.pos);
    CandidatesComplete(s.board, s.pos, |Moves|);
    if |cs| > 0 {
      assert cs[0] in cs;
      KnightMovesAreMoves(s.pos, cs[0].1);
      assert MinCandidate(cs) in cs;
    }
  }

  /**
    Warnsdorff's rule with the source's tie-break: the square moved to is
    least, under (degree, x, y), among all available knight targets.
   */
  lemma AdvanceChoosesLeast(s: State)
    requires Good(s) && s.step <= Cells && Advance(s).Some?
    ensures forall k :: 0 <= k < |Moves| && Available(s.board, Mov(s.pos, Moves[k])) ==>
      CandidateLe((CountDegree(s.board, Advance(s).value.pos), Advance(s).value.pos),
                  (CountDegree(s.board, Mov(s.pos, Moves[k])), Mov(s.pos, Moves[k])))
  {
    CandidatesComplete(s.board, s.pos, |Moves|);
  }

  /** The rest of the loop from state s. */
  function Run(s: State): (r: Option<Board>)
    requires Good(s)
    ensures r.Some? ==> Shaped(r.value)
    decreases Cells + 1 - s.step
  {
    if s.step > Cells then Some(s.board)
    else
      match Advance(s)
      case None => None
      case Some(t) => Run(t)
  }

  /** The state after the start square has been marked with step 1. */
  function Start(x: int, y: int): (s: State)
    requires InBounds(Point(x, y))
    ensures Good(s) && s.step == 2
  {
    State(Mark(NewBoard(), Point(x, y), 1), Point(x, y), 2)
  }

  /** `knights_tour`, as a function of the start square alone. */
  function Tour(x: int, y: int): Option<Board>
    requires InBounds(Point(x, y))
  {
    Run(Start(x, y))
  }

  /** n iterations from s, if none of them hits a dead end or the end of the loop. */
  function Iterate(s: State, n: nat): (r: Option<State>)
    requires Good(s)
    ensures r.Some? ==> Good(r.value) && r.value.step == s.step + n
    decreases n
  {
    if n == 0 then Some(s)
    else if s.step > Cells then None
    else
      match Advance(s)
      case None => None
      case Some(t) => Iterate(t, n - 1)
  }
}

=== FILE: markov.dfy ===
/**
  The word-bigram Markov generator: `build_table` maps every pair of adjacent
  words to the words that follow it in the text, and `run` walks that table
  one word at a time. Random picks are an explicit oracle.
 */
module Markov {
  import opened Options

  type Word = string
  type Key = (Word, Word)
  type Table = map<Key, seq<Word>>

  /** The table after the first n windows `(words[i], words[i+1], words[i+2])`, i < n, of the `izip!` loop. */
  function TableUpTo(words: seq<Word>, n: nat): Table
    requires n + 2 <= |words|
  {
    if n == 0 then map[]
    else
      var t := TableUpTo(words, n - 1);
      var key := (words[n - 1], words[n]);
      t[key := (if key in t then t[key] else []) + [words[n + 1]]]
  }

  /** The words following `key` in the first n windows, in text order (the reference definition). */
  function Successors(words: seq<Word>, key: Key, n: nat): seq<Word>
    requires n + 2 <= |words|
  {
    if n == 0 then []
    else Successors(words, key, n - 1) + (if (words[n - 1], words[n]) == key then [words[n + 1]] else [])
  }

  /**
    `build_table`: a key is present exactly when it has a successor in the
    text, and its list is all its successors in text order. The slices
    `&words[1..]` and `&words[2..]` need at least two words.
   */
  function BuildTable(words: seq<Word>): (t: Table)
    requires |words| >= 2
    ensures forall key :: key in t <==> |Successors(words, key, |words| - 2)| > 0
    ensures forall key :: key in t ==> t[key] == Successors(words, key, |words| - 2)
  {
    TableMatchesSuccessors(words, |words| - 2);
    TableUpTo(words, |words| - 2)
  }

  lemma {:induction false} TableMatchesSuccessors(words: seq<Word>, n: nat)
    requires n + 2 <= |words|
    ensures forall key :: key in TableUpTo(words, n) <==> |Successors(words, key, n)| > 0
    ensures forall key :: key in TableUpTo(words, n) ==> TableUpTo(words, n)[key] == Successors(words, key, n)
  {
    if n > 0 {
      TableMatchesSuccessors(words, n - 1);
    }
  }

  /** Word i + 2 is recorded under the pair it follows. */
  lemma {:induction false} SuccessorListed(words: seq<Word>, i: nat, n: nat)
    requires i < n && n + 2 <= |words|
    ensures words[i + 2] in Successors(words, (words[i], words[i + 1]), n)
  {
    if i < n - 1 {
      SuccessorListed(words, i, n - 1);
    }
  }

  /** Every successor in the list does follow its key somewhere in the text. */
  lemma {:induction false} SuccessorOccurs(words: seq<Word>, key: Key, n: nat, w: Word)
    requires n + 2 <= |words| && w in Successors(words, key, n)
    ensures exists i :: 0 <= i < n && (words[i], words[i + 1]) == key && words[i + 2] == w
  {
    var prev := Successors(words, key, n - 1);
    if w in prev {
      SuccessorOccurs(words, key, n - 1, w);
    } else {
      assert (words[n - 1], words[n]) == key && words[n + 1] == w;
    }
  }

  /** For every window of the text, its third word is listed under its first two. */
  lemma TableHasEveryWindow(words: seq<Word>)
    requires |words| >= 2
    ensures forall i :: 0 <= i < |words| - 2 ==>
      (words[i], words[i + 1]) in BuildTable(words) && words[i + 2] in BuildTable(words)[(words[i], words[i + 1])]
  {
    forall i | 0 <= i < |words| - 2
      ensures (words[i], words[i + 1]) in BuildTable(words)
      ensures words[i + 2] in BuildTable(words)[(words[i], words[i + 1])]
    {
      SuccessorListed(words, i, |words| - 2);
    }
  }

  /** The keys are exactly the pairs that start a window, and no list is empty. */
  lemma TableKeysAreWindowStarts(words: seq<Word>, key: Key)
    requires |words| >= 2
    ensures key in BuildTable(words) <==> exists i :: 0 <= i < |words| - 2 && (words[i], words[i + 1]) == key
    ensures key in BuildTable(words) ==> |BuildTable(words)[key]| > 0
  {
    var n := |words| - 2;
    if key in BuildTable(words) {
      SuccessorOccurs(words, key, n, Successors(words, key, n)[0]);
    }
    if i :| 0 <= i < n && (words[i], words[i + 1]) == key {
      SuccessorListed(words, i, n);
    }
  }

  /** Sum of the lengths of all value lists. */
  ghost function TotalLength(t: Table): nat
    decreases |t|
  {
    if t == map[] then 0
    else
      var key :| key in t;
      |t[key]| + TotalLength(t - {key})
  }

  /** Any key can be taken out first. */
  lemma {:induction false} TotalLengthRemove(t: Table, key: Key)
    requires key in t
    ensures TotalLength(t) == |t[key]| + TotalLength(t - {key})
    decreases |t|
  {
    var k :| k in t && TotalLength(t) == |t[k]| + TotalLength(t - {k});
    if k != key {
      assert |t - {k}| < |t|;
      TotalLengthRemove(t - {k}, key);
      TotalLengthRemove(t - {key}, k);
      assert t - {k} - {key} == t - {key} - {k};
    }
  }

  lemma TotalLengthAppend(t: Table, key: Key, w: Word)
    ensures TotalLength(t[key := (if key in t then t[key] else []) + [w]]) == TotalLength(t) + 1
  {
    var t' := t[key := (if key in t then t[key] else []) + [w]];
    TotalLengthRemove(t', key);
    assert t' - {key} == t - {key};
    if key in t {
      TotalLengthRemove(t, key);
    } else {
      assert t - {key} == t;
    }
  }

  lemma {:induction false} TableUpToTotal(words: seq<Word>, n: nat)
    requires n + 2 <= |words|
    ensures TotalLength(TableUpTo(words, n)) == n
  {
    if n == 0 {
    } else {
      TableUpToTotal(words, n - 1);
      TotalLengthAppend(TableUpTo(words, n - 1), (words[n - 1], words[n]), words[n + 1]);
    }
  }

  /** Every window contributes one entry: the lists hold |words| - 2 words in all. */
  lemma BuildTableTotal(words: seq<Word>)
    requires |words| >= 2
    ensures TotalLength(BuildTable(words)) == |words| - 2
  {
    TableUpToTotal(words, |words| - 2);
  }

  /** The generator's window `(w0, w1, w2)`; `w2` is the word printed next. */
  datatype Window = Window(w0: Word, w1: Word, w2: Word)

  /** The three words occur consecutively in the text. */
  ghost predicate IsTextWindow(words: seq<Word>, s: Window)
  {
    exists j :: 0 <= j && j + 2 < |words| && words[j] == s.w0 && words[j + 1] == s.w1 && words[j + 2] == s.w2
  }

  /** The pick of `choose` from a non-empty list, driven by the oracle value `choice`. */
  function Pick(list: seq<Word>, choice: nat): (w: Word)
    requires |list| > 0
    ensures w in list
  {
    list[choice % |list|]
  }

  /**
    The starting window of `run`: `gen_range(0, words.len() - 3)` needs more
    than three words and yields i < |words| - 3.
   */
  function StartWindow(words: seq<Word>, i: nat): (s: Window)
    requires |words| > 3 && i < |words| - 3
    ensures IsTextWindow(words, s)
    ensures (s.w0, s.w1) in BuildTable(words) && (s.w1, s.w2) in BuildTable(words)
  {
    TableHasEveryWindow(words);
    assert i + 1 < |words| - 2;
    Window(words[i], words[i + 1], words[i + 2])
  }

  /**
    The loop body of `run` as written: look up the successors of `(w0, w1)`,
    pick the new `w2`, then shift `w0 = w1; w1 = w2`. `None` is the panic of
    indexing the table with a missing key.
   */
  function ShiftAsWritten(t: Table, s: Window, choice: nat): (r: Option<Window>)
    requires forall key :: key in t ==> |t[key]| > 0
    ensures r.None? <==> (s.w0, s.w1) !in t
    ensures r.Some? ==> r.value.w0 == s.w1 && r.value.w1 == r.value.w2 && r.value.w2 in t[(s.w0, s.w1)]
  {
    var key := (s.w0, s.w1);
    if key !in t then None
    else
      var w2 := Pick(t[key], choice);
      Some(Window(s.w1, w2, w2))
  }

  /**
    The loop body with the successor looked up for the last two words, which
    is what a bigram chain needs: the window `(w0, w1, w2)` becomes
    `(w1, w2, next)` with `next` a successor of `(w1, w2)`.
   */
  function Shift(t: Table, s: Window, choice: nat): (r: Option<Window>)
    requires forall key :: key in t ==> |t[key]| > 0
    ensures r.None? <==> (s.w1, s.w2) !in t
    ensures r.Some? ==> r.value.w0 == s.w1 && r.value.w1 == s.w2 && r.value.w2 in t[(s.w1, s.w2)]
  {
    var key := (s.w1, s.w2);
    if key !in t then None
    else Some(Window(s.w1, s.w2, Pick(t[key], choice)))
  }

  /** Every word listed in `t` follows its key somewhere in the text. */
  ghost predicate ListsFollowText(words: seq<Word>, t: Table)
  {
    forall key, w :: key in t && w in t[key] ==> IsTextWindow(words, Window(key.0, key.1, w))
  }

  /** The table `build_table` makes only lists words that follow their key in the text. */
  lemma BuildTableFollowsText(words: seq<Word>)
    requires |words| >= 2
    ensures ListsFollowText(words, BuildTable(words))
  {
    var t := BuildTable(words);
    forall key, w | key in t && w in t[key]
      ensures IsTextWindow(words, Window(key.0, key.1, w))
    {
      SuccessorOccurs(words, key, |words| - 2, w);
    }
  }

  /** With a table of the text, the shift keeps the window a window of the text. */
  lemma ShiftKeepsTextWindow(words: seq<Word>, t: Table, s: Window, choice: nat)
    requires forall key :: key in t ==> |t[key]| > 0
    requires ListsFollowText(words, t)
    requires Shift(t, s, choice).Some?
    ensures IsTextWindow(words, Shift(t, s, choice).value)
  {
  }

  /**
    The `for _ in 0..length` loop: print `w2`, then shift once per oracle
    value. `None` is a run that panics on a missing key (the words printed
    before the panic are not modelled).
   */
  function Generate(t: Table, s: Window, choices: seq<nat>): (out: Option<seq<Word>>)
    requires forall key :: key in t ==> |t[key]| > 0
    ensures out.Some? ==> |out.value| == |choices| && (|choices| > 0 ==> out.value[0] == s.w2)
    decreases |choices|
  {
    if |choices| == 0 then Some([])
    else
      match Shift(t, s, choices[0])
      case None => None
      case Some(next) =>
        match Generate(t, next, choices[1..])
        case None => None
        case Some(rest) => Some([s.w2] + rest)
  }

  /** Every three consecutive words of `out` are a window of the text. */
  ghost predicate FollowsText(words: seq<Word>, out: seq<Word>)
  {
    forall j :: 0 <= j < |out| - 2 ==> IsTextWindow(words, Window(out[j], out[j + 1], out[j + 2]))
  }

  lemma FollowsTextCons(words: seq<Word>, a: Word, inner: seq<Word>)
    requires |inner| >= 2 && IsTextWindow(words, Window(a, inner[0], inner[1]))
    requires FollowsText(words, inner)
    ensures FollowsText(words, [a] + inner)
  {
    var out := [a] + inner;
    forall j | 0 <= j < |out| - 2
      ensures IsTextWindow(words, Window(out[j], out[j + 1], out[j + 2]))
    {
      if j > 0 {
        assert out[j] == inner[j - 1] && out[j + 1] == inner[j] && out[j + 2] == inner[j + 1];
      }
    }
  }

  /**
    Every output follows the text: starting from a window of the text, each
    printed word together with the two words before it (the window's words at
    the start) is a window of the text.
   */
  lemma {:induction false} GenerateFollowsText(words: seq<Word>, t: Table, s: Window, choices: seq<nat>)
    requires forall key :: key in t ==> |t[key]| > 0
    requires ListsFollowText(words, t) && IsTextWindow(words, s)
    requires Generate(t, s, choices).Some?
    ensures FollowsText(words, [s.w0, s.w1] + Generate(t, s, choices).value)
    decreases |choices|
  {
    var out := Generate(t, s, choices).value;
    if |choices| == 0 {
      assert [s.w0, s.w1] + out == [s.w0, s.w1];
    } else {
      var next := Shift(t, s, choices[0]).value;
      ShiftKeepsTextWindow(words, t, s, choices[0]);
      GenerateFollowsText(words, t, next, choices[1..]);
      var rest := Generate(t, next, choices[1..]).value;
      assert [s.w0, s.w1] + out == [s.w0] + ([next.w0, next.w1] + rest);
      FollowsTextCons(words, s.w0, [next.w0, next.w1] + rest);
    }
  }

  /** The corrected `run` on the table of the text only ever prints text trigrams. */
  lemma RunFollowsText(words: seq<Word>, i: nat, choices: seq<nat>)
    requires |words| > 3 && i < |words| - 3
    requires Generate(BuildTable(words), StartWindow(words, i), choices).Some?
    ensures var s := StartWindow(words, i);
      FollowsText(words, [s.w0, s.w1] + Generate(BuildTable(words), s, choices).value)
  {
    BuildTableFollowsText(words);
    GenerateFollowsText(words, BuildTable(words), StartWindow(words, i), choices);
  }

  /**
    On the text "a b c d e" from the first window, the shift as written
    prints "c" and then "c" again: the new window repeats its last word and
    is not a window of the text.
   */
  lemma ShiftAsWrittenLeavesText()
    ensures var words := ["a", "b", "c", "d", "e"];
      var s := StartWindow(words, 0);
      var r := ShiftAsWritten(BuildTable(words), s, 0);
      && s.w2 == "c"
      && r == Some(Window("b", "c", "c"))
      && !IsTextWindow(words, r.value)
  {
    var words := ["a", "b", "c", "d", "e"];
    var t := BuildTable(words);
    assert Successors(words, ("a", "b"), 1) == ["c"];
    assert Successors(words, ("a", "b"), 2) == ["c"];
    assert Successors(words, ("a", "b"), 3) == ["c"];
    assert t[("a", "b")] == ["c"];
    forall j | 0 <= j && j + 2 < |words|
      ensures !(words[j] == "b" && words[j + 1] == "c" && words[j + 2] == "c")
    {
    }
  }

  /** The `for` loop of `run` as written: print `w2`, then the as-written shift. */
  function GenerateAsWritten(t: Table, s: Window, choices: seq<nat>): (out: Option<seq<Word>>)
    requires forall key :: key in t ==> |t[key]| > 0
    ensures out.Some? ==> |out.value| == |choices| && (|choices| > 0 ==> out.value[0] == s.w2)
    decreases |choices|
  {
    if |choices| == 0 then Some([])
    else
      match ShiftAsWritten(t, s, choices[0])
      case None => None
      case Some(next) =>
        match GenerateAsWritten(t, next, choices[1..])
        case None => None
        case Some(rest) => Some([s.w2] + rest)
  }

  /**
    Once the as-written window has the shape `(u, v, v)`, it prints what the
    corrected loop prints from any window ending in `u, v`.
   */
  lemma {:induction false} AsWrittenTracksShift(t: Table, w: Word, u: Word, v: Word, choices: seq<nat>)
    requires forall key :: key in t ==> |t[key]| > 0
    ensures GenerateAsWritten(t, Window(u, v, v), choices) == Generate(t, Window(w, u, v), choices)
    decreases |choices|
  {
    if |choices| > 0 && (u, v) in t {
      var x := Pick(t[(u, v)], choices[0]);
      AsWrittenTracksShift(t, u, v, x, choices[1..]);
    }
  }

  /**
    What `run` prints as written: the first word `w2`, then a fresh draw for
    the same slot from the successors of `(w0, w1)`, then the corrected chain
    from there. The first slot of the chain is printed twice.
   */
  lemma AsWrittenRedrawsFirstSlot(t: Table, s: Window, choices: seq<nat>)
    requires forall key :: key in t ==> |t[key]| > 0
    requires |choices| > 0 && (s.w0, s.w1) in t
    ensures var x := Pick(t[(s.w0, s.w1)], choices[0]);
      GenerateAsWritten(t, s, choices) ==
        match Generate(t, Window(s.w0, s.w1, x), choices[1..])
        case None => None
        case Some(rest) => Some([s.w2] + rest)
  {
    var x := Pick(t[(s.w0, s.w1)], choices[0]);
    AsWrittenTracksShift(t, s.w0, s.w1, x, choices[1..]);
  }

  /** On the text "a b c d e" from the first window, three words of output are "c c d". */
  lemma RunAsWrittenPrintsRepeat()
    ensures var words := ["a", "b", "c", "d", "e"];
      GenerateAsWritten(BuildTable(words), StartWindow(words, 0), [0, 0, 0]) == Some(["c", "c", "d"])
  {
    var words := ["a", "b", "c", "d", "e"];
    var t := BuildTable(words);
    assert Successors(words, ("a", "b"), 3) == ["c"];
    assert Successors(words, ("b", "c"), 3) == ["d"];
    assert Successors(words, ("c", "d"), 3) == ["e"];
    assert t[("a", "b")] == ["c"] && t[("b", "c")] == ["d"] && t[("c", "d")] == ["e"];
    var s := StartWindow(words, 0);
    assert s == Window("a", "b", "c");
    assert ShiftAsWritten(t, s, 0) == Some(Window("b", "c", "c"));
    assert ShiftAsWritten(t, Window("b", "c", "c"), 0) == Some(Window("c", "d", "d"));
    assert ShiftAsWritten(t, Window("c", "d", "d"), 0) == Some(Window("d", "e", "e"));
    assert [0, 0, 0][1..] == [0, 0] && [0, 0][1..] == [0] && [0][1..] == [];
    assert GenerateAsWritten(t, Window("c", "d", "d"), [0]) == Some(["d"]);
    assert ["c"] + ["d"] == ["c", "d"] && ["c"] + ["c", "d"] == ["c", "c", "d"];
    assert GenerateAsWritten(t, Window("b", "c", "c"), [0, 0]) == Some(["c", "d"]);
  }

  /** Two iterations of the corrected loop on the same text and window print "c d", as the text continues. */
  lemma RunPrintsText()
    ensures var words := ["a", "b", "c", "d", "e"];
      Generate(BuildTable(words), StartWindow(words, 0), [0, 0]) == Some(["c", "d"])
  {
    var words := ["a", "b", "c", "d", "e"];
    var t := BuildTable(words);
    assert Successors(words, ("b", "c"), 3) == ["d"];
    assert Successors(words, ("c", "d"), 3) == ["e"];
    assert t[("b", "c")] == ["d"] && t[("c", "d")] == ["e"];
    var s := StartWindow(words, 0);
    assert s == Window("a", "b", "c");
    assert Shift(t, s, 0) == Some(Window("b", "c", "d"));
    assert Shift(t, Window("b", "c", "d"), 0) == Some(Window("c", "d", "e"));
    assert [0, 0][1..] == [0] && [0][1..] == [];
    assert Generate(t, Window("b", "c", "d"), [0]) == Some(["d"]);
    assert ["c"] + ["d"] == ["c", "d"];
  }
}

=== FILE: maze.dfy ===
/**
  The maze generator: a grid stored row by row in one flat sequence, a
  border of passages around interior walls, and a depth-first carver that
  turns walls into passages two cells at a time. The direction offset each
  call of `carve` draws comes from an oracle.
 */
module Maze {
  datatype Element = Wall | Passage

  /** `width` cells per row, `height` rows; cell (x, y) is `data[y * width + x]`. */
  datatype Maze = Maze(width: nat, height: nat, data: seq<Element>)

  predicate Valid(m: Maze)
  {
    |m.data| == m.width * m.height
  }

  predicate InGrid(m: Maze, x: int, y: int)
  {
    0 <= x < m.width && 0 <= y < m.height
  }

  predicate OnBorder(m: Maze, x: int, y: int)
  {
    x == 0 || x == m.width - 1 || y == 0 || y == m.height - 1
  }

  predicate Interior(m: Maze, x: int, y: int)
  {
    InGrid(m, x, y) && !OnBorder(m, x, y)
  }

  lemma FlatIndexInRange(w: nat, h: nat, x: int, y: int)
    requires 0 <= x < w && 0 <= y < h
    ensures 0 <= y * w + x < w * h
  {
    assert y * w + x < y * w + w == (y + 1) * w;
    assert (y + 1) * w <= h * w;
  }

  lemma {:induction false} MulAtLeast(a: int, w: int)
    requires w >= 0
    ensures a >= 1 ==> a * w >= w
    decreases if a > 0 then a else 0
  {
    if a > 1 {
      MulAtLeast(a - 1, w);
      assert a * w == (a - 1) * w + w;
    }
  }

  lemma FlatDivMod(w: nat, x: int, y: nat)
    requires 0 <= x < w
    ensures (y * w + x) / w == y && (y * w + x) % w == x
  {
    var a := y * w + x;
    var q, r := a / w, a % w;
    assert a == q * w + r;
    assert (y - q) * w == r - x;
    assert (q - y) * w == x - r;
    MulAtLeast(y - q, w);
    MulAtLeast(q - y, w);
  }

  /** Distinct cells have distinct flat indices. */
  lemma FlatIndexInjective(w: nat, x: int, y: nat, x': int, y': nat)
    requires 0 <= x < w && 0 <= x' < w
    ensures y * w + x == y' * w + x' <==> x == x' && y == y'
  {
    FlatDivMod(w, x, y);
    FlatDivMod(w, x', y');
  }

  function Cell(m: Maze, x: int, y: int): Element
    requires Valid(m) && InGrid(m, x, y)
  {
    FlatIndexInRange(m.width, m.height, x, y);
    m.data[y * m.width + x]
  }

  /** The cell `init` pushes for column x of row y, branch for branch. */
  function InitCell(height: nat, width: nat, x: int, y: int): Element
  {
    if y == 0 || y == height - 1 then Passage
    else if x == 0 || x == width - 1 then Passage
    else Wall
  }

  /** `init(height, width)`: the nested loops push row after row. */
  function Init(height: nat, width: nat): (m: Maze)
    ensures m.width == width && m.height == height && Valid(m)
    ensures forall x, y :: InGrid(m, x, y) ==> (Cell(m, x, y) == Passage <==> OnBorder(m, x, y))
  {
    var m := Maze(width, height, seq(height * width, i requires 0 <= i < height * width => InitCell(height, width, i % width, i / width)));
    forall x, y | InGrid(m, x, y)
      ensures Cell(m, x, y) == Passage <==> OnBorder(m, x, y)
    {
      FlatIndexInRange(width, height, x, y);
      FlatDivMod(width, x, y);
    }
    m
  }

  /** Every border cell is a passage. */
  ghost predicate BorderOpen(m: Maze)
    requires Valid(m)
  {
    forall x, y :: InGrid(m, x, y) && OnBorder(m, x, y) ==> Cell(m, x, y) == Passage
  }

  lemma InitBorderOpen(height: nat, width: nat)
    ensures BorderOpen(Init(height, width))
  {
  }

  /**
    `is_wall`: reads the cell at flat index `y * width + x`. The index must
    lie inside the data; the coordinates are never negative where `carve`
    calls it.
   */
  function IsWall(m: Maze, x: int, y: int): (r: bool)
    requires 0 <= x && 0 <= y && y * m.width + x < |m.data|
    ensures Valid(m) && InGrid(m, x, y) ==> (r <==> Cell(m, x, y) == Wall)
  {
    m.data[y * m.width + x] == Wall
  }

  /**
    Every probe `carve` makes from an interior cell meets the precondition of
    `is_wall`: the next cell in direction k is on the grid, and when it is a
    wall, so is the cell after it. So neither read goes out of the data.
   */
  lemma CarveProbesInGrid(m: Maze, x: int, y: int, k: nat)
    requires Valid(m) && BorderOpen(m) && Interior(m, x, y) && k < 4
    ensures var (x2, y2) := (x + XDirs[k], y + YDirs[k]);
      && 0 <= x2 && 0 <= y2 && y2 * m.width + x2 < |m.data| && InGrid(m, x2, y2)
      && (IsWall(m, x2, y2) ==>
            var (nx, ny) := (x2 + XDirs[k], y2 + YDirs[k]);
            0 <= nx && 0 <= ny && ny * m.width + nx < |m.data| && InGrid(m, nx, ny))
  {
    var (x2, y2) := (x + XDirs[k], y + YDirs[k]);
    FlatIndexInRange(m.width, m.height, x2, y2);
    if IsWall(m, x2, y2) {
      WallIsInterior(m, x2, y2);
      FlatIndexInRange(m.width, m.height, x2 + XDirs[k], y2 + YDirs[k]);
    }
  }

  /** Under an open border, a wall is always an interior cell. */
  lemma WallIsInterior(m: Maze, x: int, y: int)
    requires Valid(m) && BorderOpen(m) && InGrid(m, x, y) && Cell(m, x, y) == Wall
    ensures Interior(m, x, y)
  {
  }

  /** Set cell (x, y) to `Passage`. */
  function Open(m: Maze, x: int, y: int): (r: Maze)
    requires Valid(m) && InGrid(m, x, y)
    ensures r.width == m.width && r.height == m.height && Valid(r)
    ensures Cell(r, x, y) == Passage
    ensures forall cx, cy {:trigger Cell(r, cx, cy)} :: InGrid(m, cx, cy) && (cx, cy) != (x, y) ==> Cell(r, cx, cy) == Cell(m, cx, cy)
  {
    FlatIndexInRange(m.width, m.height, x, y);
    var r := m.(data := m.data[y * m.width + x := Passage]);
    forall cx, cy | InGrid(m, cx, cy) && (cx, cy) != (x, y)
      ensures Cell(r, cx, cy) == Cell(m, cx, cy)
    {
      FlatIndexInRange(m.width, m.height, cx, cy);
      FlatIndexInjective(m.width, cx, cy, x, y);
    }
    r
  }

  function WallCount(data: seq<Element>): nat
  {
    if |data| == 0 then 0
    else (if data[0] == Wall then 1 else 0) + WallCount(data[1..])
  }

  lemma {:induction false} WallCountUpdate(data: seq<Element>, k: nat)
    requires k < |data|
    ensures WallCount(data[k := Passage]) == WallCount(data) - (if data[k] == Wall then 1 else 0)
  {
    if k > 0 {
      WallCountUpdate(data[1..], k - 1);
      assert data[k := Passage][1..] == data[1..][k - 1 := Passage];
    }
  }

  /** Opening a wall removes exactly one wall; opening a passage changes nothing. */
  lemma OpenCountsDown(m: Maze, x: int, y: int)
    requires Valid(m) && InGrid(m, x, y)
    ensures WallCount(Open(m, x, y).data) == WallCount(m.data) - (if Cell(m, x, y) == Wall then 1 else 0)
  {
    FlatIndexInRange(m.width, m.height, x, y);
    WallCountUpdate(m.data, y * m.width + x);
  }

  /** No passage of `m` is a wall in `r`. */
  ghost predicate OnlyOpens(m: Maze, r: Maze)
    requires Valid(m) && Valid(r) && m.width == r.width && m.height == r.height
  {
    forall cx, cy :: InGrid(m, cx, cy) && Cell(m, cx, cy) == Passage ==> Cell(r, cx, cy) == Passage
  }

  /** Cells whose two coordinates both differ in parity from (x, y) are unchanged. */
  ghost predicate PillarsKept(m: Maze, r: Maze, x: int, y: int)
    requires Valid(m) && Valid(r) && m.width == r.width && m.height == r.height
  {
    forall cx, cy :: InGrid(m, cx, cy) && (cx - x) % 2 == 1 && (cy - y) % 2 == 1 ==> Cell(r, cx, cy) == Cell(m, cx, cy)
  }

  const XDirs: seq<int> := [1, -1, 0, 0]
  const YDirs: seq<int> := [0, 0, 1, -1]

  /**
    Direction k can be carved from (x, y): the next cell that way and the
    cell after it are both walls.
   */
  predicate Carvable(m: Maze, x: int, y: int, k: nat)
    requires Valid(m) && Interior(m, x, y) && k < 4
  {
    var (x2, y2) := (x + XDirs[k], y + YDirs[k]);
    Cell(m, x2, y2) == Wall && InGrid(m, x2 + XDirs[k], y2 + YDirs[k]) && Cell(m, x2 + XDirs[k], y2 + YDirs[k]) == Wall
  }

  /**
    Direction k is exhausted at (x, y): the next cell that way is not a
    wall, or the cell after it is a passage. `carve` never recurses in such
    a direction.
   */
  ghost predicate Finished(m: Maze, x: int, y: int, k: nat)
    requires Valid(m) && Interior(m, x, y) && k < 4
  {
    var (x2, y2) := (x + XDirs[k], y + YDirs[k]);
    Cell(m, x2, y2) == Wall ==> InGrid(m, x2 + XDirs[k], y2 + YDirs[k]) && Cell(m, x2 + XDirs[k], y2 + YDirs[k]) == Passage
  }

  /** All four directions are exhausted at (x, y): a `carve` started there has run to completion. */
  ghost predicate AllFinished(m: Maze, x: int, y: int)
    requires Valid(m) && Interior(m, x, y)
  {
    forall k :: 0 <= k < 4 ==> Finished(m, x, y, k)
  }

  /**
    The depth-first property of `carve` from (x, y): every other interior
    cell with the parity of (x, y) that was a wall in m and is a passage in
    r has been carved from to completion.
   */
  ghost predicate Explored(m: Maze, r: Maze, x: int, y: int)
    requires Valid(m) && Valid(r) && m.width == r.width && m.height == r.height
  {
    forall cx, cy ::
      Interior(m, cx, cy) && (cx - x) % 2 == 0 && (cy - y) % 2 == 0 && (cx, cy) != (x, y) &&
      Cell(m, cx, cy) == Wall && Cell(r, cx, cy) == Passage
      ==> AllFinished(r, cx, cy)
  }

  /** Exploration composes along passes that only open cells. */
  lemma ExploredTrans(a: Maze, b: Maze, c: Maze, x: int, y: int)
    requires Valid(a) && Valid(b) && Valid(c)
    requires a.width == b.width == c.width && a.height == b.height == c.height
    requires Explored(a, b, x, y) && Explored(b, c, x, y) && OnlyOpens(b, c)
    ensures Explored(a, c, x, y)
  {
    forall cx, cy |
      Interior(a, cx, cy) && (cx - x) % 2 == 0 && (cy - y) % 2 == 0 && (cx, cy) != (x, y) &&
      Cell(a, cx, cy) == Wall && Cell(c, cx, cy) == Passage
      ensures AllFinished(c, cx, cy)
    {
      if Cell(b, cx, cy) == Passage {
        forall k | 0 <= k < 4
          ensures Finished(c, cx, cy, k)
        {
          FinishedStays(b, c, cx, cy, k);
        }
      }
    }
  }

  lemma FinishedStays(m: Maze, r: Maze, x: int, y: int, k: nat)
    requires Valid(m) && Valid(r) && m.width == r.width && m.height == r.height
    requires Interior(m, x, y) && k < 4 && Finished(m, x, y, k) && OnlyOpens(m, r)
    ensures Finished(r, x, y, k)
  {
  }

  /** Direction k comes at position `(k - d) mod 4` of the order starting at offset d; the first i have been tried. */
  predicate Tried(d: nat, i: nat, k: nat)
  {
    (k - d + 4) % 4 < i
  }

  lemma TriedStep(d: nat, i: nat)
    requires d < 4 && i < 4
    ensures forall k :: 0 <= k < 4 ==> (Tried(d, i + 1, k) <==> Tried(d, i, k) || k == (d + i) % 4)
  {
  }

  lemma TriedAll(d: nat, k: nat)
    requires d < 4 && k < 4
    ensures Tried(d, 4, k)
  {
  }

  /** Opening a cell that is not a pillar of (px, py) keeps the invariants of `carve`. */
  lemma OpenKeeps(m: Maze, x: int, y: int, px: int, py: int)
    requires Valid(m) && InGrid(m, x, y) && BorderOpen(m)
    requires !((x - px) % 2 == 1 && (y - py) % 2 == 1)
    ensures BorderOpen(Open(m, x, y)) && OnlyOpens(m, Open(m, x, y)) && PillarsKept(m, Open(m, x, y), px, py)
  {
  }

  lemma ParityShift(a: int, b: int)
    ensures (a - 2 * b) % 2 == a % 2
  {
  }

  /**
    Opening the next cell (x2, y2) and carving from (nx, ny), two cells
    away, keeps the invariants of `carve` at (x, y).
   */
  lemma CarveKeeps(cur: Maze, cut: Maze, next: Maze, x: int, y: int, x2: int, y2: int, nx: int, ny: int)
    requires Valid(cur) && Valid(next) && cur.width == next.width && cur.height == next.height
    requires InGrid(cur, x2, y2) && InGrid(cur, nx, ny)
    requires (x2 - x == 0 || y2 - y == 0) && nx - x2 == x2 - x && ny - y2 == y2 - y
    requires cut == Open(cur, x2, y2)
    requires OnlyOpens(cut, next) && PillarsKept(cut, next, nx, ny)
    ensures OnlyOpens(cur, next) && PillarsKept(cur, next, x, y)
  {
    CarveKeepsPassages(cur, cut, next, x2, y2);
    CarveKeepsPillars(cur, cut, next, x, y, x2, y2, nx, ny);
  }

  lemma CarveKeepsPassages(cur: Maze, cut: Maze, next: Maze, x2: int, y2: int)
    requires Valid(cur) && Valid(next) && cur.width == next.width && cur.height == next.height
    requires InGrid(cur, x2, y2) && cut == Open(cur, x2, y2) && OnlyOpens(cut, next)
    ensures OnlyOpens(cur, next)
  {
    forall cx, cy | InGrid(cur, cx, cy) && Cell(cur, cx, cy) == Passage
      ensures Cell(next, cx, cy) == Passage
    {
      assert Cell(cut, cx, cy) == Passage;
    }
  }

  lemma CarveKeepsPillars(cur: Maze, cut: Maze, next: Maze, x: int, y: int, x2: int, y2: int, nx: int, ny: int)
    requires Valid(cur) && Valid(next) && cur.width == next.width && cur.height == next.height
    requires InGrid(cur, x2, y2)
    requires (x2 - x == 0 || y2 - y == 0) && nx - x2 == x2 - x && ny - y2 == y2 - y
    requires cut == Open(cur, x2, y2) && PillarsKept(cut, next, nx, ny)
    ensures PillarsKept(cur, next, x, y)
  {
    forall cx, cy | InGrid(cur, cx, cy) && (cx - x) % 2 == 1 && (cy - y) % 2 == 1
      ensures Cell(next, cx, cy) == Cell(cur, cx, cy)
    {
      ParityShift(cx - x, x2 - x);
      ParityShift(cy - y, y2 - y);
      assert cx - nx == (cx - x) - 2 * (x2 - x) && cy - ny == (cy - y) - 2 * (y2 - y);
      assert (cx, cy) != (x2, y2);
      assert Cell(next, cx, cy) == Cell(cut, cx, cy);
    }
  }

  /**
    What one pass in direction k does: nothing unless the direction is
    carvable, and then the next cell and the cell after it become passages.
   */
  ghost predicate Directed(cur: Maze, next: Maze, x: int, y: int, k: nat)
    requires Valid(cur) && Interior(cur, x, y) && k < 4
    requires Valid(next) && next.width == cur.width && next.height == cur.height
  {
    && (!Carvable(cur, x, y, k) ==> next == cur)
    && (Carvable(cur, x, y, k) ==>
          && Cell(next, x + XDirs[k], y + YDirs[k]) == Passage
          && Cell(next, x + 2 * XDirs[k], y + 2 * YDirs[k]) == Passage)
  }

  /** After a carve in direction k, the next cell and the cell after it are passages. */
  lemma CarvedBoth(cur: Maze, cut: Maze, next: Maze, x: int, y: int, k: nat, x2: int, y2: int, nx: int, ny: int)
    requires Valid(cur) && Interior(cur, x, y) && k < 4
    requires x2 == x + XDirs[k] && y2 == y + YDirs[k] && nx == x2 + XDirs[k] && ny == y2 + YDirs[k]
    requires Carvable(cur, x, y, k)
    requires cut == Open(cur, x2, y2)
    requires Valid(next) && next.width == cut.width && next.height == cut.height && OnlyOpens(cut, next)
    requires InGrid(next, nx, ny) && Cell(next, nx, ny) == Passage
    ensures Directed(cur, next, x, y, k)
  {
    assert Cell(cut, x2, y2) == Passage;
  }

  /** A step to one of the four neighbours. */
  predicate Unit(dx: int, dy: int)
  {
    ((dx == 1 || dx == -1) && dy == 0) || (dx == 0 && (dy == 1 || dy == -1))
  }

  /** A pass that finds a passage in the next cell or the one after it changes nothing. */
  lemma NotCarvable(cur: Maze, x: int, y: int, k: nat)
    requires Valid(cur) && Interior(cur, x, y) && k < 4
    requires Cell(cur, x + XDirs[k], y + YDirs[k]) == Wall ==>
      InGrid(cur, x + XDirs[k] + XDirs[k], y + YDirs[k] + YDirs[k]) &&
      Cell(cur, x + XDirs[k] + XDirs[k], y + YDirs[k] + YDirs[k]) == Passage
    ensures Directed(cur, cur, x, y, k)
  {
  }

  /**
    The depth-first step of `carve` in direction k: the cell two steps on
    has been carved from to completion, and so has every other cell with
    the parity of (x, y) that was opened.
   */
  ghost predicate CarvedOn(cur: Maze, next: Maze, x: int, y: int, k: nat)
    requires Valid(cur) && Valid(next) && cur.width == next.width && cur.height == next.height && k < 4
  {
    && Interior(cur, x + 2 * XDirs[k], y + 2 * YDirs[k])
    && AllFinished(next, x + 2 * XDirs[k], y + 2 * YDirs[k])
    && Explored(cur, next, x, y)
  }

  /**
    Cell (cx, cy) lies on a corridor carved from (x, y) in direction k: the
    cell before it has the parity of (x, y) and is a passage in r, and the
    cell after it was a wall in m and is a passage in r.
   */
  ghost predicate Corridor(m: Maze, r: Maze, x: int, y: int, cx: int, cy: int, k: nat)
    requires Valid(m) && Valid(r) && m.width == r.width && m.height == r.height && k < 4
  {
    var (px, py) := (cx - XDirs[k], cy - YDirs[k]);
    var (qx, qy) := (cx + XDirs[k], cy + YDirs[k]);
    && InGrid(m, px, py) && (px - x) % 2 == 0 && (py - y) % 2 == 0 && Cell(r, px, py) == Passage
    && InGrid(m, qx, qy) && Cell(m, qx, qy) == Wall && Cell(r, qx, qy) == Passage
  }

  /**
    The corridor frame of `carve` from (x, y): a cell opened that does not
    have the parity of (x, y) was opened between two cells of that parity,
    stepping from a passage into a wall. Knocking down walls around a cell
    breaks it; carving corridors two cells at a time keeps it.
   */
  ghost predicate Corridors(m: Maze, r: Maze, x: int, y: int)
    requires Valid(m) && Valid(r) && m.width == r.width && m.height == r.height
  {
    forall cx, cy ::
      InGrid(m, cx, cy) && !((cx - x) % 2 == 0 && (cy - y) % 2 == 0) &&
      Cell(m, cx, cy) == Wall && Cell(r, cx, cy) == Passage
      ==> exists k :: 0 <= k < 4 && Corridor(m, r, x, y, cx, cy, k)
  }

  /** The corridor frame composes along passes that only open cells. */
  lemma CorridorsTrans(a: Maze, b: Maze, c: Maze, x: int, y: int)
    requires Valid(a) && Valid(b) && Valid(c)
    requires a.width == b.width == c.width && a.height == b.height == c.height
    requires Corridors(a, b, x, y) && Corridors(b, c, x, y) && OnlyOpens(a, b) && OnlyOpens(b, c)
    ensures Corridors(a, c, x, y)
  {
    forall cx, cy |
      InGrid(a, cx, cy) && !((cx - x) % 2 == 0 && (cy - y) % 2 == 0) &&
      Cell(a, cx, cy) == Wall && Cell(c, cx, cy) == Passage
      ensures exists k :: 0 <= k < 4 && Corridor(a, c, x, y, cx, cy, k)
    {
      if Cell(b, cx, cy) == Passage {
        var k :| 0 <= k < 4 && Corridor(a, b, x, y, cx, cy, k);
        CorridorLater(a, b, c, x, y, cx, cy, k);
      } else {
        var k :| 0 <= k < 4 && Corridor(b, c, x, y, cx, cy, k);
        CorridorEarlier(a, b, c, x, y, cx, cy, k);
      }
    }
  }

  /**
    Knocking down a wall next to (x, y) without opening the wall beyond it
    is not a corridor, so a carver that only opens neighbours breaks the
    frame.
   */
  lemma NeighbourAloneIsNoCorridor(m: Maze, x: int, y: int)
    requires Valid(m) && Interior(m, x, y) && InGrid(m, x + 2, y)
    requires Cell(m, x + 1, y) == Wall && Cell(m, x + 2, y) == Wall
    ensures !Corridors(m, Open(m, x + 1, y), x, y)
  {
    var r := Open(m, x + 1, y);
    assert Cell(r, x + 2, y) == Wall;
    assert !Corridor(m, r, x, y, x + 1, y, 0) && !Corridor(m, r, x, y, x + 1, y, 1);
    assert !Corridor(m, r, x, y, x + 1, y, 2) && !Corridor(m, r, x, y, x + 1, y, 3);
  }

  /** A corridor stays one when later passes only open cells. */
  lemma CorridorLater(a: Maze, b: Maze, c: Maze, x: int, y: int, cx: int, cy: int, k: nat)
    requires Valid(a) && Valid(b) && Valid(c) && k < 4
    requires a.width == b.width == c.width && a.height == b.height == c.height
    requires Corridor(a, b, x, y, cx, cy, k) && OnlyOpens(b, c)
    ensures Corridor(a, c, x, y, cx, cy, k)
  {
  }

  /** A corridor carved from walls of b was carved from walls of a, when a to b only opens cells. */
  lemma CorridorEarlier(a: Maze, b: Maze, c: Maze, x: int, y: int, cx: int, cy: int, k: nat)
    requires Valid(a) && Valid(b) && Valid(c) && k < 4
    requires a.width == b.width == c.width && a.height == b.height == c.height
    requires Corridor(b, c, x, y, cx, cy, k) && OnlyOpens(a, b)
    ensures Corridor(a, c, x, y, cx, cy, k)
  {
  }

  /**
    A carve through (x2, y2) from (x, y) explores every cell it opens with
    the parity of (x, y): those are the cell (nx, ny) two steps on, finished
    by the recursive call, and the cells that call explored.
   */
  lemma ExploredThrough(cur: Maze, cut: Maze, next: Maze, x: int, y: int, x2: int, y2: int, nx: int, ny: int)
    requires Valid(cur) && InGrid(cur, x2, y2) && Interior(cur, nx, ny)
    requires Unit(x2 - x, y2 - y) && nx == x + 2 * (x2 - x) && ny == y + 2 * (y2 - y)
    requires cut == Open(cur, x2, y2)
    requires Valid(next) && next.width == cur.width && next.height == cur.height
    requires Explored(cut, next, nx, ny) && AllFinished(next, nx, ny)
    ensures Explored(cur, next, x, y)
  {
    forall cx, cy |
      Interior(cur, cx, cy) && (cx - x) % 2 == 0 && (cy - y) % 2 == 0 && (cx, cy) != (x, y) &&
      Cell(cur, cx, cy) == Wall && Cell(next, cx, cy) == Passage
      ensures AllFinished(next, cx, cy)
    {
      ExploredCell(cur, cut, next, x, y, x2, y2, nx, ny, cx, cy);
    }
  }

  /** One cell of `ExploredThrough`. */
  lemma ExploredCell(cur: Maze, cut: Maze, next: Maze, x: int, y: int, x2: int, y2: int, nx: int, ny: int, cx: int, cy: int)
    requires Valid(cur) && InGrid(cur, x2, y2) && Interior(cur, nx, ny)
    requires Unit(x2 - x, y2 - y) && nx == x + 2 * (x2 - x) && ny == y + 2 * (y2 - y)
    requires cut == Open(cur, x2, y2)
    requires Valid(next) && next.width == cur.width && next.height == cur.height
    requires Explored(cut, next, nx, ny) && AllFinished(next, nx, ny)
    requires Interior(cur, cx, cy) && (cx - x) % 2 == 0 && (cy - y) % 2 == 0
    requires Cell(cur, cx, cy) == Wall && Cell(next, cx, cy) == Passage
    ensures AllFinished(next, cx, cy)
  {
    ParityAcross(cx, cy, x, y, x2 - x, y2 - y);
    assert Cell(cut, cx, cy) == Wall;
    if (cx, cy) != (nx, ny) {
      assert Interior(cut, cx, cy) && (cx - nx) % 2 == 0 && (cy - ny) % 2 == 0;
    }
  }

  /**
    A cell with the parity of (x, y) is not the neighbour (x + dx, y + dy),
    and it has the parity of the cell two steps that way.
   */
  lemma ParityAcross(cx: int, cy: int, x: int, y: int, dx: int, dy: int)
    requires Unit(dx, dy) && (cx - x) % 2 == 0 && (cy - y) % 2 == 0
    ensures (cx, cy) != (x + dx, y + dy)
    ensures (cx - (x + 2 * dx)) % 2 == 0 && (cy - (y + 2 * dy)) % 2 == 0
  {
    ParityShift(cx - x, dx);
    ParityShift(cy - y, dy);
  }

  /**
    A carve through (x2, y2) from the passage (x, y) into the wall (nx, ny)
    keeps the corridor frame: (x2, y2) itself lies between (x, y) and
    (nx, ny), and every other cell it opens lies on a corridor of the
    recursive carve from (nx, ny), which has the parity of (x, y).
   */
  lemma CorridorsThrough(cur: Maze, cut: Maze, next: Maze, x: int, y: int, k: nat, x2: int, y2: int, nx: int, ny: int)
    requires Valid(cur) && Interior(cur, x, y) && k < 4 && Cell(cur, x, y) == Passage
    requires x2 == x + XDirs[k] && y2 == y + YDirs[k] && nx == x2 + XDirs[k] && ny == y2 + YDirs[k]
    requires Carvable(cur, x, y, k)
    requires cut == Open(cur, x2, y2)
    requires Valid(next) && next.width == cur.width && next.height == cur.height && OnlyOpens(cut, next)
    requires Corridors(cut, next, nx, ny) && Cell(next, nx, ny) == Passage
    ensures Corridors(cur, next, x, y)
  {
    assert Unit(x2 - x, y2 - y);
    forall cx, cy |
      InGrid(cur, cx, cy) && !((cx - x) % 2 == 0 && (cy - y) % 2 == 0) &&
      Cell(cur, cx, cy) == Wall && Cell(next, cx, cy) == Passage
      ensures exists j :: 0 <= j < 4 && Corridor(cur, next, x, y, cx, cy, j)
    {
      if (cx, cy) == (x2, y2) {
        assert Cell(next, x, y) == Passage by {
          assert Cell(cut, x, y) == Passage;
        }
        assert Corridor(cur, next, x, y, cx, cy, k);
      } else {
        CorridorCell(cur, cut, next, x, y, x2, y2, nx, ny, cx, cy);
      }
    }
  }

  /** One cell of `CorridorsThrough` other than (x2, y2). */
  lemma CorridorCell(cur: Maze, cut: Maze, next: Maze, x: int, y: int, x2: int, y2: int, nx: int, ny: int, cx: int, cy: int)
    requires Valid(cur) && InGrid(cur, x2, y2)
    requires Unit(x2 - x, y2 - y) && nx == x + 2 * (x2 - x) && ny == y + 2 * (y2 - y)
    requires cut == Open(cur, x2, y2)
    requires Valid(next) && next.width == cur.width && next.height == cur.height
    requires Corridors(cut, next, nx, ny)
    requires InGrid(cur, cx, cy) && (cx, cy) != (x2, y2) && !((cx - x) % 2 == 0 && (cy - y) % 2 == 0)
    requires Cell(cur, cx, cy) == Wall && Cell(next, cx, cy) == Passage
    ensures exists j :: 0 <= j < 4 && Corridor(cur, next, x, y, cx, cy, j)
  {
    ParityShift(cx - x, x2 - x);
    ParityShift(cy - y, y2 - y);
    assert !((cx - nx) % 2 == 0 && (cy - ny) % 2 == 0);
    assert Cell(cut, cx, cy) == Wall;
    var j :| 0 <= j < 4 && Corridor(cut, next, nx, ny, cx, cy, j);
    CorridorBack(cur, cut, next, x, y, x2, y2, nx, ny, cx, cy, j);
  }

  /** A corridor of the carve from (nx, ny) in the maze after opening (x2, y2) is one of the carve from (x, y). */
  lemma CorridorBack(cur: Maze, cut: Maze, next: Maze, x: int, y: int, x2: int, y2: int, nx: int, ny: int, cx: int, cy: int, j: nat)
    requires Valid(cur) && InGrid(cur, x2, y2) && j < 4
    requires Unit(x2 - x, y2 - y) && nx == x + 2 * (x2 - x) && ny == y + 2 * (y2 - y)
    requires cut == Open(cur, x2, y2)
    requires Valid(next) && next.width == cur.width && next.height == cur.height
    requires Corridor(cut, next, nx, ny, cx, cy, j)
    ensures Corridor(cur, next, x, y, cx, cy, j)
  {
    var (px, py) := (cx - XDirs[j], cy - YDirs[j]);
    var (qx, qy) := (cx + XDirs[j], cy + YDirs[j]);
    ParityShift(px - x, x2 - x);
    ParityShift(py - y, y2 - y);
    assert (qx, qy) != (x2, y2);
    assert Cell(cut, qx, qy) == Cell(cur, qx, qy);
  }

  lemma CarvedOnIntro(cur: Maze, next: Maze, x: int, y: int, k: nat, nx: int, ny: int)
    requires Valid(cur) && Valid(next) && cur.width == next.width && cur.height == next.height && k < 4
    requires nx == x + 2 * XDirs[k] && ny == y + 2 * YDirs[k]
    requires Interior(cur, nx, ny) && AllFinished(next, nx, ny) && Explored(cur, next, x, y)
    ensures CarvedOn(cur, next, x, y, k)
  {
  }

  lemma KeepsTrans(a: Maze, b: Maze, c: Maze, x: int, y: int)
    requires Valid(a) && Valid(b) && Valid(c)
    requires a.width == b.width == c.width && a.height == b.height == c.height
    requires OnlyOpens(a, b) && PillarsKept(a, b, x, y) && OnlyOpens(b, c) && PillarsKept(b, c, x, y)
    ensures OnlyOpens(a, c) && PillarsKept(a, c, x, y)
  {
  }

  /**
    `carve(x, y)`: open (x, y), then try the four directions starting at the
    drawn offset `dir(y * width + x) % 4`. Each call starts on a distinct
    cell, so one draw per cell covers every run.
   */
  method Carve(m: Maze, x: int, y: int, dir: nat -> nat) returns (r: Maze)
    requires Valid(m) && BorderOpen(m) && Interior(m, x, y)
    ensures r.width == m.width && r.height == m.height && Valid(r) && BorderOpen(r)
    ensures Cell(r, x, y) == Passage
    ensures OnlyOpens(m, r) && PillarsKept(m, r, x, y)
    ensures forall k :: 0 <= k < 4 ==> Finished(r, x, y, k)
    ensures Explored(m, r, x, y) && Corridors(m, r, x, y)
    ensures WallCount(r.data) <= WallCount(m.data)
    decreases WallCount(m.data), 2
  {
    FlatIndexInRange(m.width, m.height, x, y);
    var d := dir(y * m.width + x) % 4;
    OpenCountsDown(m, x, y);
    var cur := Open(m, x, y);
    OpenKeeps(m, x, y, x, y);
    var i := 0;
    while i < 4
      invariant 0 <= i <= 4
      invariant cur.width == m.width && cur.height == m.height && Valid(cur) && BorderOpen(cur)
      invariant Cell(cur, x, y) == Passage
      invariant OnlyOpens(m, cur) && PillarsKept(m, cur, x, y)
      invariant WallCount(cur.data) <= WallCount(m.data)
      invariant forall k :: 0 <= k < 4 && Tried(d, i, k) ==> Finished(cur, x, y, k)
      invariant Explored(m, cur, x, y) && Corridors(m, cur, x, y)
    {
      var k := (d + i) % 4;
      TriedStep(d, i);
      var next := CarveDirection(cur, x, y, k, dir);
      KeepsTrans(m, cur, next, x, y);
      ExploredTrans(m, cur, next, x, y);
      CorridorsTrans(m, cur, next, x, y);
      forall k' | 0 <= k' < 4 && Tried(d, i, k')
        ensures Finished(next, x, y, k')
      {
        FinishedStays(cur, next, x, y, k');
      }
      cur := next;
      i := i + 1;
    }
    forall k | 0 <= k < 4
      ensures Finished(cur, x, y, k)
    {
      TriedAll(d, k);
    }
    r := cur;
  }

  /**
    One pass of the loop of `carve` in direction k: when the next cell and
    the cell after it are both walls, open the next cell and carve on from
    the cell after; otherwise change nothing.
   */
  method CarveDirection(cur: Maze, x: int, y: int, k: nat, dir: nat -> nat) returns (next: Maze)
    requires Valid(cur) && BorderOpen(cur) && Interior(cur, x, y) && k < 4 && Cell(cur, x, y) == Passage
    ensures next.width == cur.width && next.height == cur.height && Valid(next) && BorderOpen(next)
    ensures Directed(cur, next, x, y, k)
    ensures OnlyOpens(cur, next) && PillarsKept(cur, next, x, y)
    ensures Finished(next, x, y, k)
    ensures Explored(cur, next, x, y) && Corridors(cur, next, x, y)
    ensures WallCount(next.data) <= WallCount(cur.data)
    decreases WallCount(cur.data), 1
  {
    next := cur;
    var x2, y2 := x + XDirs[k], y + YDirs[k];
    FlatIndexInRange(cur.width, cur.height, x2, y2);
    if IsWall(cur, x2, y2) {
      WallIsInterior(cur, x2, y2);
      var nx, ny := x2 + XDirs[k], y2 + YDirs[k];
      FlatIndexInRange(cur.width, cur.height, nx, ny);
      if IsWall(cur, nx, ny) {
        next := CarveThrough(cur, x, y, k, dir);
      } else {
        NotCarvable(cur, x, y, k);
      }
    } else {
      NotCarvable(cur, x, y, k);
    }
  }

  /**
    The inner branch of that pass: open the wall next to (x, y) in direction
    k and carve on from the wall beyond it.
   */
  method CarveThrough(cur: Maze, x: int, y: int, k: nat, dir: nat -> nat) returns (next: Maze)
    requires Valid(cur) && BorderOpen(cur) && Interior(cur, x, y) && k < 4 && Cell(cur, x, y) == Passage
    requires Carvable(cur, x, y, k)
    ensures next.width == cur.width && next.height == cur.height && Valid(next) && BorderOpen(next)
    ensures Directed(cur, next, x, y, k)
    ensures OnlyOpens(cur, next) && PillarsKept(cur, next, x, y)
    ensures Finished(next, x, y, k)
    ensures CarvedOn(cur, next, x, y, k) && Corridors(cur, next, x, y)
    ensures WallCount(next.data) < WallCount(cur.data)
    decreases WallCount(cur.data), 0
  {
    var x2, y2 := x + XDirs[k], y + YDirs[k];
    var nx, ny := x2 + XDirs[k], y2 + YDirs[k];
    WallIsInterior(cur, x2, y2);
    WallIsInterior(cur, nx, ny);
    OpenCountsDown(cur, x2, y2);
    var cut := Open(cur, x2, y2);
    next := Carve(cut, nx, ny, dir);
    CarveKeeps(cur, cut, next, x, y, x2, y2, nx, ny);
    CarvedBoth(cur, cut, next, x, y, k, x2, y2, nx, ny);
    assert Unit(x2 - x, y2 - y);
    ExploredThrough(cur, cut, next, x, y, x2, y2, nx, ny);
    CarvedOnIntro(cur, next, x, y, k, nx, ny);
    CorridorsThrough(cur, cut, next, x, y, k, x2, y2, nx, ny);
  }

  /**
    `generate(width, height)` as written: it calls `init(width, height)`
    against the parameter order `init(height, width)`, carves from (2, 2),
    then opens the flat indices `1 * width + 2` and
    `(height - 2) * width + (width - 3)` computed with the requested width.
   */
  method GenerateAsWritten(width: nat, height: nat, dir: nat -> nat) returns (m: Maze)
    requires width >= 4 && height >= 4
    ensures m.width == height && m.height == width && Valid(m)
    ensures m.data[1 * width + 2] == Passage && m.data[(height - 2) * width + (width - 3)] == Passage
  {
    var init := Init(width, height);
    m := Carve(init, 2, 2, dir);
    FlatIndexInRange(width, height, 2, 1);
    FlatIndexInRange(width, height, width - 3, height - 2);
    m := m.(data := m.data[1 * width + 2 := Passage]);
    m := m.(data := m.data[(height - 2) * width + (width - 3) := Passage]);
  }

  /**
    With the sizes `main` passes, 39 by 31, the maze as written is 31 cells
    wide and 39 high, and the write meant for the entrance (2, 1) lands on
    cell (10, 1).
   */
  lemma SwappedEntrance(m: Maze)
    requires Valid(m) && m.width == 31 && m.height == 39
    ensures Cell(m, 10, 1) == m.data[1 * 39 + 2]
    ensures Cell(m, 2, 1) == m.data[1 * 31 + 2] && 1 * 31 + 2 != 1 * 39 + 2
  {
  }

  /**
    `generate` with the dimensions passed in the order `init` declares: the
    maze has the requested size, a passage at the entrance (2, 1) below the
    top border, at the start (2, 2) and at the exit (width - 3, height - 2),
    and an open border.
   */
  method Generate(width: nat, height: nat, dir: nat -> nat) returns (m: Maze)
    requires width >= 4 && height >= 4
    ensures m.width == width && m.height == height && Valid(m) && BorderOpen(m)
    ensures Cell(m, 2, 1) == Passage && Cell(m, 2, 2) == Passage && Cell(m, width - 3, height - 2) == Passage
  {
    var init := Init(height, width);
    m := Carve(init, 2, 2, dir);
    OpenKeeps(m, 2, 1, 2, 2);
    m := Open(m, 2, 1);
    OpenKeeps(m, width - 3, height - 2, width - 3, height - 2);
    m := Open(m, width - 3, height - 2);
  }
}

=== FILE: options.dfy ===
/** The optional-value type shared by the modules of this model: Rust's `Option`. */
module Options {

  datatype Option<+T> = None | Some(value: T)

}

=== FILE: password_gen.dfy ===
/**
  The password generator: four character pools, the weighted choice of a
  character class, the layout of a password (digits, then specials, then free
  characters) and the length-feasibility test that guards it. Every random
  draw comes from an explicit oracle.
 */
module PasswordGen {
  import opened Options

  /** The command line's `u8` values. */
  type U8 = x: int | 0 <= x < 256

  const Lowers: string := "abcdefghijklmnopqrstuvwxyz"
  const Uppers: string := "ABCDEFGHIJKLMNOPQRSTUVWXYZ"
  const Specials: string := "!@#$%^&*()-_=+{}[]|\\:;\"'<,>.?/~`"
  const Numbers: string := "1234567890"

  datatype CharType = Lower | Upper | Special | Number

  function Pool(t: CharType): string
  {
    match t
    case Lower => Lowers
    case Upper => Uppers
    case Special => Specials
    case Number => Numbers
  }

  /** The pools have 26, 26, 32 and 10 characters. */
  lemma PoolSizes()
    ensures |Pool(Lower)| == 26 && |Pool(Upper)| == 26 && |Pool(Special)| == 32 && |Pool(Number)| == 10
  {
  }

  /** The class a character belongs to, decided from its code point (an independent characterisation of the pools). */
  function ClassOf(c: char): (r: Option<CharType>)
  {
    if 'a' <= c <= 'z' then Some(Lower)
    else if 'A' <= c <= 'Z' then Some(Upper)
    else if '0' <= c <= '9' then Some(Number)
    else if c in Specials then Some(Special)
    else None
  }

  lemma LowersAreRange(c: char)
    ensures c in Lowers <==> 'a' <= c <= 'z'
  {
  }

  lemma UppersAreRange(c: char)
    ensures c in Uppers <==> 'A' <= c <= 'Z'
  {
  }

  lemma NumbersAreRange(c: char)
    ensures c in Numbers <==> '0' <= c <= '9'
  {
  }

  lemma SpecialsAreNotAlphanumeric(c: char)
    requires c in Specials
    ensures !('a' <= c <= 'z') && !('A' <= c <= 'Z') && !('0' <= c <= '9')
  {
  }

  /** The pools are disjoint and `ClassOf` recovers the pool of each of their characters. */
  lemma ClassOfPool(c: char, t: CharType)
    ensures c in Pool(t) <==> ClassOf(c) == Some(t)
  {
    LowersAreRange(c);
    UppersAreRange(c);
    NumbersAreRange(c);
    if c in Specials {
      SpecialsAreNotAlphanumeric(c);
    }
  }

  /** `sample`: the draw `n` of `gen_range(0, 6)` picks the class. */
  function Sample(n: nat): (t: CharType)
    requires n < 6
    ensures Offset(t) <= n < Offset(t) + Weight(t)
  {
    match n
    case 0 | 1 => Lower
    case 2 | 3 => Upper
    case 4 => Special
    case _ => Number
  }

  /** How many of the six draws select each class. */
  function Weight(t: CharType): nat
  {
    match t
    case Lower => 2
    case Upper => 2
    case Special => 1
    case Number => 1
  }

  /** Where the block of draws of class t starts: the weights of the classes before it, in `Sample`'s order. */
  function Offset(t: CharType): nat
  {
    match t
    case Lower => 0
    case Upper => Weight(Lower)
    case Special => Weight(Lower) + Weight(Upper)
    case Number => Weight(Lower) + Weight(Upper) + Weight(Special)
  }

  /** Letters are twice as likely as specials and digits: exactly `Weight(t)` of the six draws give `t`. */
  lemma SampleWeights(t: CharType)
    ensures |set n | 0 <= n < 6 && Sample(n) == t| == Weight(t)
  {
    var pre := set n | 0 <= n < 6 && Sample(n) == t;
    match t
    case Lower => assert pre == {0, 1};
    case Upper => assert pre == {2, 3};
    case Special => assert pre == {4};
    case Number => assert pre == {5};
  }

  /** `random_char`: the index draw `pick` of `gen_range(0, len)` selects from the pool. */
  function RandomChar(t: CharType, pick: nat): (c: char)
    requires pick < |Pool(t)|
    ensures c in Pool(t)
  {
    Pool(t)[pick]
  }

  /** Every character of the pool is reachable by some index draw. */
  lemma RandomCharCovers(t: CharType, c: char)
    requires c in Pool(t)
    ensures exists pick: nat :: pick < |Pool(t)| && RandomChar(t, pick) == c
  {
    var pick :| 0 <= pick < |Pool(t)| && Pool(t)[pick] == c;
    assert RandomChar(t, pick) == c;
  }

  /**
    The random draws for one character: `kind` is the class draw in
    `0..6`, only used for free characters; `pick` is the index draw, taken
    modulo the pool size so that every value is a legal draw.
   */
  datatype Draw = Draw(kind: nat, pick: nat)

  function CharOf(t: CharType, d: Draw): (c: char)
    ensures c in Pool(t)
  {
    RandomChar(t, d.pick % |Pool(t)|)
  }

  /** The character is from one of the four pools. */
  predicate InSomePool(c: char)
  {
    c in Lowers || c in Uppers || c in Specials || c in Numbers
  }

  /** The class of the `i`-th character: `mn` digits, `ms` specials, then drawn classes. */
  function SlotClass(mn: nat, ms: nat, i: nat, d: Draw): CharType
  {
    if i < mn then Number
    else if i < mn + ms then Special
    else Sample(d.kind % 6)
  }

  function Max(a: int, b: int): int
  {
    if a >= b then a else b
  }

  /**
    `gen_password`: the loop over `0..min_num`, the loop over `0..min_spec`
    and the loop from the current length up to `l`, as one sequence whose
    character `i` is drawn with `draw(i)`. The flags `_up`
    and `_low` are accepted and not used.
   */
  function GenPassword(l: U8, mn: U8, ms: U8, up: bool, low: bool, draw: nat -> Draw): (pass: string)
    ensures |pass| == Max(l, mn + ms)
    ensures forall i :: 0 <= i < mn ==> pass[i] in Numbers
    ensures forall i :: mn <= i < mn + ms ==> pass[i] in Specials
    ensures forall i :: 0 <= i < |pass| ==> InSomePool(pass[i])
  {
    var pass := seq(Max(l, mn + ms), i requires 0 <= i => CharOf(SlotClass(mn, ms, i, draw(i)), draw(i)));
    forall i | 0 <= i < |pass|
      ensures pass[i] in Pool(SlotClass(mn, ms, i, draw(i)))
    {
      assert pass[i] == CharOf(SlotClass(mn, ms, i, draw(i)), draw(i));
    }
    pass
  }

  /** Each character of the password is from the pool its slot calls for. */
  lemma GenPasswordSlots(l: U8, mn: U8, ms: U8, up: bool, low: bool, draw: nat -> Draw, i: nat)
    requires i < |GenPassword(l, mn, ms, up, low, draw)|
    ensures ClassOf(GenPassword(l, mn, ms, up, low, draw)[i]) == Some(SlotClass(mn, ms, i, draw(i)))
  {
    var pass := GenPassword(l, mn, ms, up, low, draw);
    assert pass[i] in Pool(SlotClass(mn, ms, i, draw(i)));
    ClassOfPool(pass[i], SlotClass(mn, ms, i, draw(i)));
  }

  /** The case flags change nothing in the password. */
  lemma IgnoresCaseFlags(l: U8, mn: U8, ms: U8, up: bool, low: bool, up': bool, low': bool, draw: nat -> Draw)
    ensures GenPassword(l, mn, ms, up, low, draw) == GenPassword(l, mn, ms, up', low', draw)
  {
  }

  function Bit(b: bool): nat
  {
    if b then 1 else 0
  }

  /** Truncation of a sum to `u8`, as a release build's `+` on `u8` does. */
  function WrapU8(n: int): (r: U8)
    ensures 0 <= n < 256 ==> r == n
  {
    n % 256
  }

  /** `comp_length` as written: the `u8` sum wraps around. */
  function CompLengthAsWritten(l: U8, mn: U8, ms: U8, up: bool, low: bool): (ok: bool)
    ensures ok <==> l >= (mn + ms + Bit(up) + Bit(low)) % 256
  {
    l >= WrapU8(WrapU8(WrapU8(mn + ms) + Bit(up)) + Bit(low))
  }

  /** `comp_length` with the sum taken without overflow. */
  function CompLength(l: U8, mn: U8, ms: U8, up: bool, low: bool): (ok: bool)
    ensures ok ==> mn + ms <= l
  {
    l >= mn + ms + Bit(up) + Bit(low)
  }

  /** The two agree whenever the sum fits in a `u8`. */
  lemma CompLengthAgrees(l: U8, mn: U8, ms: U8, up: bool, low: bool)
    requires mn + ms + Bit(up) + Bit(low) < 256
    ensures CompLengthAsWritten(l, mn, ms, up, low) == CompLength(l, mn, ms, up, low)
  {
  }

  /** A feasible request gets a password of exactly the requested length; an infeasible one with no case flags a longer one. */
  lemma CompLengthMeansExactLength(l: U8, mn: U8, ms: U8, up: bool, low: bool, draw: nat -> Draw)
    ensures CompLength(l, mn, ms, up, low) ==> |GenPassword(l, mn, ms, up, low, draw)| == l
    ensures !CompLength(l, mn, ms, false, false) ==> |GenPassword(l, mn, ms, up, low, draw)| > l
  {
  }

  /**
    Length 12 with 200 digits and 60 specials: the wrapped sum is 4, so the
    test as written accepts, and the password has 260 characters.
   */
  lemma CompLengthWrapAccepts(draw: nat -> Draw)
    ensures CompLengthAsWritten(12, 200, 60, false, false)
    ensures !CompLength(12, 200, 60, false, false)
    ensures |GenPassword(12, 200, 60, false, false, draw)| == 260
  {
  }

  /** The minimum count of `main`: the value given only when the class flag is also set. */
  function MinCount(flag: bool, given: Option<U8>): (r: U8)
    ensures r != 0 ==> flag && given.Some?
    ensures flag && given.Some? ==> r == given.value
  {
    if flag && given.Some? then UnwrapOr(given, 1) else 0
  }

  /**
    The default of `unwrap_or` never matters: the value is read only after
    `is_some()`, so any default gives the same minimum.
   */
  lemma MinCountDefaultUnused(flag: bool, given: Option<U8>, default: U8)
    ensures (if flag && given.Some? then UnwrapOr(given, default) else 0) == MinCount(flag, given)
  {
  }

  function UnwrapOr(o: Option<U8>, default: U8): (r: U8)
    ensures o.Some? ==> r == o.value
    ensures o.None? ==> r == default
  {
    match o
    case Some(v) => v
    case None => default
  }

  /** The options `main` reads. */
  datatype Request = Request(
    length: Option<U8>, upper: bool, lower: bool, numbers: bool, special: bool,
    minNumbers: Option<U8>, minSpecial: Option<U8>)

  datatype Outcome = Rejected(length: U8, minSpecial: U8, minNumbers: U8) | Generated(password: string)

  /**
    `main` with the overflow-free test: the length defaults to 12, and a
    request whose minimums do not fit is rejected with the values it reports.
   */
  function Decide(req: Request, draw: nat -> Draw): (out: Outcome)
    ensures var len := if req.length.Some? then req.length.value else 12;
      var mn := MinCount(req.numbers, req.minNumbers);
      var ms := MinCount(req.special, req.minSpecial);
      && (out.Rejected? <==> len < mn + ms + Bit(req.upper) + Bit(req.lower))
      && (out.Rejected? ==> out == Rejected(len, ms, mn))
      && (out.Generated? ==>
            && |out.password| == len
            && (forall i :: 0 <= i < mn ==> out.password[i] in Numbers)
            && (forall i :: mn <= i < mn + ms ==> out.password[i] in Specials))
  {
    var len: U8 := match req.length case Some(v) => v case None => 12;
    var mn := MinCount(req.numbers, req.minNumbers);
    var ms := MinCount(req.special, req.minSpecial);
    if !CompLength(len, mn, ms, req.upper, req.lower) then Rejected(len, ms, mn)
    else
      CompLengthMeansExactLength(len, mn, ms, req.upper, req.lower, draw);
      Generated(GenPassword(len, mn, ms, req.upper, req.lower, draw))
  }
}
